=== FILE: README.md ===
# Moonshine wallet core, modelled in Dafny

This project models the core of the Moonshine mobile wallet (Canada eCoin
edition). It covers five parts:

- **The Electrum client.** The client (`src/utils/electrum/client/index.js`)
  sends batches of per-address requests and gathers their rows in whatever
  order the replies arrive. It keeps the connection alive with pings when
  idle. When the socket closes it either reconnects or gives up, according
  to a retry policy.
- **The rates reducer.** The exchange-rates reducer (`src/reducers/rates.js`)
  files each rate update under its ticker.
- **The rate feed.** The feed (`src/utils/ecoincore.js`) turns DDP events of
  the `ExchangeRates` collection into rate updates. It also waits for a
  Redux store to dispatch them to.
- **The transaction detail screen** (`src/components/TransactionDetail.js`):
  - confirmations and the pending/confirmed status;
  - the text of OP_RETURN messages;
  - the grouped display of an address;
  - the replace-by-fee (RBF) rate stepper and its affordability test;
  - explorer links;
  - the UTXO checks.
- **The settings screen** (`src/components/Settings.js`):
  - the wallet-tree updates it dispatches: address type, generic updates,
    rescans and the passphrase reset;
  - the backup phrase and the wallet name;
  - the panel flags, the back button and the toggles.

Each source file takes its own form in the model:

- **The Electrum client** is a class, `ElectrumClient.Client`. Its fields
  are the connection state: the last-call stamp, the pending keep-alive
  timer, the retry policy, the closed flag, the listeners and the requests
  sent.
- **The batch aggregators** are loops over a completion order.
  `Completion.IsCompletionOrder` is a permutation of the request indices.
  Each loop is proved equal to a specification function, which is then
  characterised exactly by lemmas.
- **The rates reducer** is a pure function with algebraic lemmas.
- **The rate feed** is a class, `ECoinCore.Core`. Its fields are the
  module's variables `store`, `documentKeys` and the store-polling
  interval, plus a log of what was dispatched or dropped.
- **The two screens** are classes holding the component state that their
  handlers change: `TransactionDetail.RbfStepper` and
  `Settings.SettingsScreen`. What those handlers compute (trees dispatched
  to Redux, URLs, labels) is given by pure functions with lemmas.

JavaScript values are modelled by `Js.Value`. Its helpers cover truthiness,
nullishness, property access, object spread, `includes` and `indexOf`. The
string operations the screens use are in `Strings`: `trim`, `split`/`join`
on one character, and `slice` with clamping.

Three behaviours of the code that a reader might not expect:

- **Retry budget.** `reconnect()` calls `initElectrum` without a policy, and
  that installs the default policy before the retry counter is decremented.
  So while the client is open the retry budget never runs out
  (`OpenClientNeverExhausts`), and a caller's `callback` is never called.
  The budget only counts down after `close()` (`ClosedClientRunsDown`).
- **Store polling.** `initializeWithStore` stops the store-polling interval
  only when the store it is given is usable. `updateStoreReference` never
  stops it.
- **requestBatch.** The second `requestBatch` definition replaces the
  first, so batch requests neither stamp the clock nor re-arm the
  keep-alive.

## Model

| member | source | states |
|---|---|---|
| Completion.GatherIsPermutation | src/utils/electrum/client/index.js:178-193 | The rows pushed by the callbacks, in any completion order, are a permutation of all per-request rows taken in issue order. |
| Completion.GatherLength | src/utils/electrum/client/index.js:178-193 | In any completion order, the result holds exactly as many rows as all requests contributed together. |
| Completion.GatherMembers | src/utils/electrum/client/index.js:205-227 | A row is in the gathered array iff some request contributed it. |
| Completion.GatherBlock | src/utils/electrum/client/index.js:205-227 | The rows of the request that settled at position k form one contiguous block, after the rows of earlier settlements and before those of later ones. |
| Completion.GatherInIssueOrder | src/utils/electrum/client/index.js:178-193 | When the replies arrive in issue order, the result is the plain concatenation of the per-request rows. |
| ElectrumClient.TagsOf | src/utils/electrum/client/index.js:178-290 | Reading a descriptor throws exactly for `null` when the parameter pattern has defaults (getBalance, getHistory, getMempool), and for `null` or `undefined` without them (listunspent). |
| ElectrumClient.CollectBalances | src/utils/electrum/client/index.js:178-193 | The getBalance push loop, run in completion order, builds exactly `BalanceBatch`. |
| ElectrumClient.BalanceBatchExact | src/utils/electrum/client/index.js:178-193 | getBalance rejects with the error object iff some descriptor is `null`. Otherwise it resolves to one record per descriptor whose request settled with a destructurable response, carrying that response's confirmed/unconfirmed and the descriptor's tags, and to nothing else. |
| ElectrumClient.CollectEntryRows | src/utils/electrum/client/index.js:205-290 | The getHistory/getMempool/listunspent push loop, run in completion order, builds exactly `EntryBatch`. |
| ElectrumClient.EntryBatchExact | src/utils/electrum/client/index.js:205-290 | These calls fail iff some descriptor is `null` in the defaulted variants, and listunspent never fails. Each output row is built from one non-nullish entry of a settled array response, tagged with its descriptor, and every such entry yields a row. |
| ElectrumClient.EntryBatchBlocks | src/utils/electrum/client/index.js:205-290 | A descriptor's rows appear as one block in response order, wherever in the completion order it settled. |
| ElectrumClient.CollectTransactions | src/utils/electrum/client/index.js:361-379 | The transactions-get loop builds exactly `TxBatch`; it never rejects. |
| ElectrumClient.TxBatchExact | src/utils/electrum/client/index.js:361-379 | Each output object is a requested transaction merged with its own truthy response, the response's fields winning. Falsy responses, failed requests and `null` entries are dropped. |
| ElectrumClient.Client.RequestThenIdle | src/utils/electrum/client/index.js:19-72 | Take an open client, a request sent at `now` (stamping `timeLastCall`) that resolves at `at`, and the keep-alive timer it re-arms firing 5000 ms later with nothing sent in between. That timer pings iff `at > now`. The calls handed to the parent are the request, then the ping exactly in that case. |
| ElectrumClient.EffectivePolicy | src/utils/electrum/client/index.js:11-16 | Only an omitted policy argument takes the default `{maxRetry: 1000}`. An explicit `null` leaves no policy. |
| ElectrumClient.ReconnectReplacesPolicy | src/utils/electrum/client/index.js:37-54 | While the client is open, one automatic reconnect replaces the caller's policy with the default, decremented once, and drops the callback. |
| ElectrumClient.OpenClientNeverExhausts | src/utils/electrum/client/index.js:37-54 | However many drops an open client suffers, each one reconnects and the callback is never called. |
| ElectrumClient.ClosedClientRunsDown | src/utils/electrum/client/index.js:37-54 | After `close()`, the pending retry timers count the caller's budget down to 0 without reconnecting. Each later firing calls the callback, if there is one. |
| ElectrumClient.Client.constructor | src/utils/electrum/client/index.js:6-9 | A new client has no stamp, no timers, no policy, no requests and is open. |
| ElectrumClient.Client.InitElectrum | src/utils/electrum/client/index.js:11-16 | Installs the policy (defaulted) and the config, resets the last-call stamp to 0 and connects once. |
| ElectrumClient.Client.BeginRequest | src/utils/electrum/client/index.js:19-26 | Sending stamps the clock and hands exactly this call to the parent. |
| ElectrumClient.Client.CompleteRequest | src/utils/electrum/client/index.js:19-26 | A resolved request re-arms the keep-alive from its settle time, unless the client is closed. A rejected one changes nothing. |
| ElectrumClient.Client.Request | src/utils/electrum/client/index.js:19-26 | Returns the parent's reply unchanged, stamps the send time, records the call and re-arms the keep-alive only on success. |
| ElectrumClient.Client.ServerVersion | src/utils/electrum/client/index.js:91-97 | Sends `server.version` with the client name and protocol version through `request`. |
| ElectrumClient.Client.RequestBatch | src/utils/electrum/client/index.js:395-400 | The effective `requestBatch` passes the reply through and changes no state. |
| ElectrumClient.Client.KeepAlive | src/utils/electrum/client/index.js:57-72 | Replaces any pending keep-alive timer by one due 5000 ms from now. It is a no-op after close. |
| ElectrumClient.Client.KeepAliveFires | src/utils/electrum/client/index.js:57-72 | When the timer fires it is gone. It pings (`server.ping`, stamping the clock) iff some call was made and none in the last 5000 ms. |
| ElectrumClient.Client.OnClose | src/utils/electrum/client/index.js:37-54 | On an open client, drops both subscription events' listeners and schedules one retry. After close it does nothing. |
| ElectrumClient.Client.Reconnect | src/utils/electrum/client/index.js:82-86 | On an open client, a fresh socket and `initElectrum` with the stored config and the default policy. After close it does nothing. |
| ElectrumClient.Client.RetryTimerFires | src/utils/electrum/client/index.js:44-53 | The delayed retry step follows `RetryStep` exactly. It reconnects, calls the callback or does nothing, and touches nothing else. |
| ElectrumClient.Client.Close | src/utils/electrum/client/index.js:74-80 | Cancels the keep-alive and marks the client closed. |
| ElectrumClient.Client.Dispatch | src/utils/electrum/client/index.js:178-290 | Every call of the batch is sent, in order, all stamped with the same instant. |
| ElectrumClient.Client.SettleAll | src/utils/electrum/client/index.js:19-26 | The keep-alive due time after a batch settles is the one re-armed by the last successful request in completion order. |
| ElectrumClient.Client.ScripthashesGetBalance | src/utils/electrum/client/index.js:178-193 | Sends one `get_balance` per readable descriptor and resolves to `BalanceBatch`, with the clock and keep-alive effects of the requests. |
| ElectrumClient.Client.ScripthashesGetHistory | src/utils/electrum/client/index.js:205-257 | The same for `get_history` and `get_mempool`, resolving to the history rows. |
| ElectrumClient.Client.ScripthashesListunspent | src/utils/electrum/client/index.js:267-290 | The same for `listunspent`, which always resolves to rows. |
| ElectrumClient.Client.TransactionsGet | src/utils/electrum/client/index.js:361-379 | Sends one `transaction.get` per non-null transaction and resolves to `TxBatch`. |
| Rates.UpdateMergesPayload | src/reducers/rates.js:5-12 | After an update, the ticker's record is the old record overridden by the payload: payload fields win, the other old fields stay, and nothing else is added. |
| Rates.UpdateKeepsOtherTickers | src/reducers/rates.js:5-12 | An update adds or changes no other ticker's record. |
| Rates.OtherActionsKeepState | src/reducers/rates.js:5-12 | Any other action type returns the state unchanged. |
| Rates.UpdateIsIdempotent | src/reducers/rates.js:5-12 | Replaying an update changes nothing further. |
| Rates.FirstUpdateIsPayload | src/reducers/rates.js:5-12 | The first update of a ticker files the payload itself. From the initial state `{}`, the result is exactly one record: the payload under its ticker. |
| Rates.UpdatesOfDistinctTickersCommute | src/reducers/rates.js:5-12 | Updates of different tickers commute. |
| Rates.LaterUpdateWins | src/reducers/rates.js:5-12 | Two updates of one ticker equal a single update with the later payload winning field by field. |
| ECoinCore.OtherCollectionsIgnored | src/utils/ecoincore.js:67-85 | Events of other collections change nothing and dispatch nothing. |
| ECoinCore.TickerRecordedFirst | src/utils/ecoincore.js:67-85 | A truthy ticker in the fields is recorded for the document before any filtering, so removals record it too. Without one the map is unchanged. |
| ECoinCore.DispatchExactly | src/utils/ecoincore.js:67-85 | An event dispatches iff it is an ExchangeRates event of a document with a known ticker, is not a removal, and has a truthy rate. The action carries the fields with `ticker` set to the remembered one. |
| ECoinCore.TickerRemembered | src/utils/ecoincore.js:67-85 | A later change without a ticker is filed under the ticker an earlier event recorded for the same document. |
| ECoinCore.TrackKeepsTickersTruthy | src/utils/ecoincore.js:67-85 | Tracking keeps every remembered ticker truthy and never forgets a document. |
| ECoinCore.RateReachesReducer | src/utils/ecoincore.js:67-85 | A dispatched rate lands in the reducer's record for the remembered ticker. |
| ECoinCore.Core.constructor | src/utils/ecoincore.js:155-167 | At module load the store is adopted if usable, and polling is running either way. |
| ECoinCore.Core.SafeDispatch | src/utils/ecoincore.js:20-31 | The action goes to the held store, or is dropped when there is none. |
| ECoinCore.Core.OnDdpEvent | src/utils/ecoincore.js:67-85 | `documentKeys` becomes `Track`'s map. The action, if any, is delivered or dropped as `safeDispatch` decides. |
| ECoinCore.Core.SetupDdpEventHandlers | src/utils/ecoincore.js:93-117 | Reports success iff a usable store is held. |
| ECoinCore.Core.InitializeStore | src/utils/ecoincore.js:135-152 | Adopts the global store iff it has a dispatch function, and reports which. |
| ECoinCore.Core.CheckAndSetupStore | src/utils/ecoincore.js:155-162 | As `initializeStore`, and polling stops exactly on success. |
| ECoinCore.Core.PollTick | src/utils/ecoincore.js:166-167 | After a tick, polling continues iff the store was still not usable. |
| ECoinCore.Core.UpdateStoreReference | src/utils/ecoincore.js:172-180 | Installs a usable store and leaves polling as it is. |
| ECoinCore.Core.InitializeWithStore | src/utils/ecoincore.js:184-197 | Installs a usable store and stops polling only then. |
| TransactionDetail.ConfirmationsCount | src/components/TransactionDetail.js:312-324 | This is the count before `formatNumber`. An unmined transaction has 0 confirmations. A block at or below the tip has between 1 and tip confirmations, and 1 exactly at the tip. Each new block adds one. |
| TransactionDetail.PendingExactly | src/components/TransactionDetail.js:575 | If `formatNumber` returns the count as a number, the status is Pending iff the transaction is unmined or its block is one past the tip. If it returns a string, the status is Pending iff the transaction is unmined, because `confirmations === 0` then never holds for a mined transaction. |
| TransactionDetail.ConfirmedTest | src/components/TransactionDetail.js:396 | The `confirmations > 0` test never holds for an unmined transaction. With a numeric `formatNumber` it holds iff the count is positive. With a string result it holds iff the string converts to a positive number. |
| TransactionDetail.GetMessages | src/components/TransactionDetail.js:327-345 | The loop builds the message text: "" without messages, a lone message without a newline, and with two or more every message followed by a newline, the last one included. |
| TransactionDetail.TerminatedIsJoin | src/components/TransactionDetail.js:327-345 | Newline-terminating every message equals joining them with a trailing empty piece. |
| TransactionDetail.MessagesRoundTrip | src/components/TransactionDetail.js:327-345 | For newline-free messages the text splits back into the messages. With two or more, the text ends in a newline, so a trailing "" appears. |
| TransactionDetail.GroupsOnlyAddSpaces | src/components/TransactionDetail.js:586-600 | Grouping an address only inserts spaces: 4 of them when it is longer than 20 characters, else 3. |
| TransactionDetail.PrettifyRoundTrip | src/components/TransactionDetail.js:586-604 | For a space-free address, removing the spaces gives back the first half, the second half and the whole address. |
| TransactionDetail.GroupLayout | src/components/TransactionDetail.js:586-600 | A space-free half of at least 12 characters displays as the groups 4,4,4,4,rest (longer than 20) or 4,4,4,rest. |
| TransactionDetail.AffordExactly | src/components/TransactionDetail.js:249-275 | RBF is affordable iff there is RBF data and the confirmed balance exceeds size × the absolute difference between the new and original rates. A 0 argument falls back to the state's rate. |
| TransactionDetail.AffordMonotone | src/components/TransactionDetail.js:249-275 | Between the original rate and an affordable higher rate, every rate is affordable. |
| TransactionDetail.RbfFloor | src/components/TransactionDetail.js:411-427 | For increase and decrease: the rate never drops below original+1 once there, and a decrease at the floor does nothing. An increase takes effect only when the next rate is affordable, and then steps by one and repeats. |
| TransactionDetail.OtherActionPassesFloor | src/components/TransactionDetail.js:411-427 | Any other action string steps below the floor and keeps repeating. |
| TransactionDetail.RbfStepper.constructor | src/components/TransactionDetail.js:68-86 | The initial state: rate 0, original fee 1, no repeat timer. |
| TransactionDetail.RbfStepper.Mount | src/components/TransactionDetail.js:88-104 | With RBF support, the original fee is the transaction's fee and the rate starts one above it. Otherwise nothing changes. |
| TransactionDetail.RbfStepper.UpdateRbfValue | src/components/TransactionDetail.js:411-427 | The rate and the repeat timer become `RbfStep`'s result, with affordability tested at the next rate. |
| TransactionDetail.RbfStepper.RepeatFires | src/components/TransactionDetail.js:411-427 | The pending repeat runs the same action again and re-arms only if that step repeats. |
| TransactionDetail.RbfStepper.StopRbfValueTimer | src/components/TransactionDetail.js:429-431 | Releasing the button cancels the repeat. |
| TransactionDetail.CanRbfExactly | src/components/TransactionDetail.js:384-408 | RBF is offered iff all of these hold: the coin supports it; the setting is on; the transaction was sent; its formatted confirmations are not above 0 under JavaScript's `>`; RBF data exists; and the balance covers a rate of 1. |
| TransactionDetail.BlockUrl | src/components/TransactionDetail.js:155-167 | The block link is the coin's explorer prefix followed by the height. A coin without an explorer gives "", and `openUrl` is called with "". |
| TransactionDetail.AddressUrl | src/components/TransactionDetail.js:169-181 | The address link is the coin's explorer prefix followed by the address, or "" for other coins, with which `openUrl` is still called. |
| TransactionDetail.MessageUrl | src/components/TransactionDetail.js:183-206 | A message link exists iff the coin has a message explorer, and is its prefix followed by the transaction hash. |
| TransactionDetail.ExplorerCoverage | src/components/TransactionDetail.js:155-206 | The same eight coins have block and address links. Only five of them have message links, so for auroracoin, egulden and emark `openMessage` opens nothing. The litecoin testnet block link is the mainnet one, while its address and message links differ from mainnet. |
| TransactionDetail.IsBlacklisted | src/components/TransactionDetail.js:358-369 | True iff the blacklist is present and some entry equals the selected transaction's hash. |
| TransactionDetail.TxHashes | src/components/TransactionDetail.js:371-382 | Mapping UTXOs to hashes succeeds iff no UTXO is nullish, and then gives one hash per UTXO. |
| TransactionDetail.IsActiveUtxo | src/components/TransactionDetail.js:371-382 | True iff the UTXO list is present, every UTXO can be read, and the selected hash is among their hashes. |
| Settings.DerivationPath | src/components/Settings.js:648-676 | The key derivation path is "49" exactly for segwit, "44" exactly for legacy, and "84" for anything else. |
| Settings.CollectNewData | src/components/Settings.js:678-700 | The `data.map` pass over the entries succeeds iff no entry is `null` and (the wallet is nullish ⇒ nothing is written). It then yields `NewData`, each key bound to the coin's map merged with the key's last write. |
| Settings.LastWriteIsLast | src/components/Settings.js:678-700 | The value recorded for a key is that of the last entry that writes it. |
| Settings.NewDataLastWrite | src/components/Settings.js:678-700 | A key is in the new data iff some entry writes it. Its coin entry is then that last write. |
| Settings.UpdateWalletLookup | src/components/Settings.js:678-700 | After `updateWallet`, `wallets[selected][key][coin]` holds the last written value. Every other wallet, key and coin reads as before. |
| Settings.RescanLookup | src/components/Settings.js:721-771 | A rescan resets exactly the eight per-coin records of the selected coin, and nothing else changes. |
| Settings.RescanIdempotent | src/components/Settings.js:721-771 | Rescanning twice dispatches the same tree as rescanning once. |
| Settings.ResetKeepsExactlyFive | src/components/Settings.js:573-591 | The reset wallet holds the default shape plus the five kept fields. Kept fields come from the wallet, the rest from the default, and other wallets are untouched. Resetting again changes nothing. |
| Settings.GetWalletName | src/components/Settings.js:796-804 | A name that is non-blank after `trim()` is returned as it is. Failing that, a non-blank label is returned as it is. A name is produced iff one of these exists or the wallet order is an array, and the name produced is never blank. |
| Settings.WalletNameFallback | src/components/Settings.js:796-804 | Without a usable name or label, the wallet is called "Wallet i", where i is its first position in the order, or -1 when it is absent. |
| Settings.NameStaysShort | src/components/Settings.js:1003 | After any sequence of inputs the name is at most 16 characters long. It is the last input shorter than 17 characters, or the starting name when every input was 17 or longer. |
| Settings.ToggleTwice | src/components/Settings.js:289-320 | A toggle flips the setting's truthiness and leaves the other settings alone. Toggling twice restores the truthiness. |
| Settings.ApplyItemsUntouched | src/components/Settings.js:230-287 | A flag no item names is left as it was. |
| Settings.TogglePairEffect | src/components/Settings.js:230-287 | Toggling a panel sets its flag and sets the settings list to the opposite. |
| Settings.FirstOpenIsFirst | src/components/Settings.js:361-444 | Back finds no panel iff none is open; otherwise it finds the first open panel in the order that `onBack` checks them. |
| Settings.BackClosesOnlyFirst | src/components/Settings.js:361-444 | Back closes only the first open panel and shows the settings list. Other panels stay as they were. |
| Settings.AddressTypeWritesBoth | src/components/Settings.js:648-676 | Changing the address type writes the derivation path (and the type, when truthy) for the selected coin and nothing else. |
| Settings.SettingsScreen.constructor | src/components/Settings.js:140-178 | The initial flags: the settings list is shown and every panel is hidden. |
| Settings.SettingsScreen.UpdateItems | src/components/Settings.js:230-287 | The flags become `ApplyItems`. An item whose flag already has the requested value is skipped. |
| Settings.SettingsScreen.TogglePanel | src/components/Settings.js:496-571 | Sets the panel's flag and sets the settings list to the opposite. |
| Settings.SettingsScreen.ToggleImportPhrase | src/components/Settings.js:496-506 | Shows or hides the import panel, opposite to the list. |
| Settings.SettingsScreen.ToggleBroadcastTransaction | src/components/Settings.js:514-524 | Shows or hides the broadcast panel, opposite to the list. |
| Settings.SettingsScreen.ToggleVerifyMessage | src/components/Settings.js:549-559 | Shows or hides the verify panel, opposite to the list. |
| Settings.SettingsScreen.ToggleElectrumOptions | src/components/Settings.js:561-571 | Shows or hides the Electrum panel, opposite to the list. |
| Settings.SettingsScreen.ToggleSignMessage | src/components/Settings.js:526-547 | While rescanning, or without addresses, it only alerts. Otherwise it toggles the sign panel. |
| Settings.SettingsScreen.ToggleBackupPhrase | src/components/Settings.js:463-494 | Without a wallet, or when the keychain read fails, nothing happens. Showing stores the phrase, opens the panel and marks the wallet backed up. Hiding clears the phrase. |
| Settings.SettingsScreen.ToggleFiatModal | src/components/Settings.js:508-512 | The fiat flag takes the given value, or is negated when none is given. |
| Settings.SettingsScreen.TogglePin | src/components/Settings.js:322-341 | With a PIN set, it clears the PIN and turns the setting off. Otherwise it turns the setting on and shows the PIN pad. |
| Settings.SettingsScreen.OnPinSuccess | src/components/Settings.js:347-359 | Hides the PIN pad and shows the settings list. |
| Settings.SettingsScreen.ToggleSetting | src/components/Settings.js:343-345 | Dispatches the patch that negates the setting. |
| Settings.SettingsScreen.ToggleTestnet | src/components/Settings.js:289-295 | Dispatches the negated `testnet` setting. |
| Settings.SettingsScreen.ToggleRbf | src/components/Settings.js:297-303 | Dispatches the negated `rbf` setting. |
| Settings.SettingsScreen.ToggleSendTransactionFallback | src/components/Settings.js:305-311 | Dispatches the negated `sendTransactionFallback` setting. |
| Settings.SettingsScreen.ToggleTheme | src/components/Settings.js:313-320 | Dispatches the negated `darkMode` setting; when `forceAppUpdate` throws, dispatches `darkMode: true` instead. |
| Settings.SettingsScreen.OnBack | src/components/Settings.js:361-444 | With no panel open it leaves the screen. Otherwise it closes only the first open panel, shows the list and applies that panel's side effect: PIN reset, message resets, or clearing the phrase. |
| Settings.SettingsScreen.GetBackupPhrase | src/components/Settings.js:789-794 | The phrase words are numbered from 1 in order, and joining them with spaces gives back the stored phrase. |
| Settings.SettingsScreen.UpdateWallet | src/components/Settings.js:678-700 | Dispatches the updated wallet tree iff the entries can be applied, and otherwise dispatches nothing. |
| Settings.SettingsScreen.RescanWallet | src/components/Settings.js:721-771 | Dispatches the rescanned tree when the wallet exists. The rescanning flag stays set unless the rescan and the refresh both succeed. |
| Settings.SettingsScreen.UpdateAddressType | src/components/Settings.js:648-676 | Writes the address type and its derivation path, then rescans the updated tree. |
| Settings.SettingsScreen.ResetWalletForPassphrase | src/components/Settings.js:573-591 | Dispatches the reset tree when the wallet exists, and otherwise nothing. |
| Strings.TrimEmptyIffBlank | src/components/Settings.js:796-804 | `s.trim()` is empty iff every character of `s` is white space. |
| Strings.JoinSplit | src/components/Settings.js:789-794 | Joining the pieces of a split gives back the string. |
| Strings.SplitJoin | src/components/TransactionDetail.js:327-345 | Splitting a join of separator-free pieces gives back the pieces. |
| Js.IndexOf | src/components/Settings.js:796-804 | `indexOf` is -1 iff the value is absent. Otherwise it is the first position holding the value. |
| Js.Includes | src/components/TransactionDetail.js:358-369 | `includes` holds iff the value is in the array. |

## Left out

- **Electrum sockets.** The parent Electrum client is not part of this model: its socket, `connect`, `onError`, the JSON-RPC framing, and the path where `keepAlive` arms a 9000 ms ping timeout that calls `onError` when the ping does not settle (src/utils/electrum/client/index.js:63-65). A request's outcome is a parameter (`Reply`). Registering listeners on the parent's subscription emitter (its `on`) is also left out: the client only removes them, so the listener counts a client starts with are a constructor argument.
- **Promise scheduling.** Scheduling is reduced to a completion order, a permutation of the requests. Timers become explicit "fires" methods.
- **Other wrappers.** The one-line wrappers other than `server_version` (`server_ping`, `blockchainAddress_*`, the subscribe calls) send one request through `request`, exactly like `ServerVersion`, and are not repeated.
- **Number values.** `Js.Value` has no NaN and does not model the spread of strings and arrays. Numbers are reals.
- **Ticker keys.** The rates state and `ECoinCore.Core.documentKeys` are keyed by any `Value`, although JavaScript turns object keys into strings (`state[ticker]` in the reducer, `documentKeys[event.id]` in the ExchangeRates listener). Two tickers, or two document ids, with the same string form are not merged.
- **Meteor.** The connection, `Meteor.getData`, the socket event logging and the `Chainpacks` collection are not modelled. Events arrive as method arguments.
- **Outside the core.** The camera screens, `Root.js` and the Android `MainActivity` are not part of this model.
- **Wallet I/O.** Keychain I/O, animations, alerts' texts and navigation are left out. Hiding a panel takes effect at once rather than after its animation.
- **Screen inputs.** `getByteCount`, `supportsRbf`, `formatNumber`, the block tip and the confirmed balance are inputs of the transaction screen. JavaScript's string-to-number conversion, used by `canRbf`'s `>` test, is a parameter as well. For a formatted value that is an array, that test gives false, whereas JavaScript would convert the array through its string form.
- **Settings reducer.** It is not part of this model: the settings and wallet updates are recorded as the patches dispatched.
- **Other Settings operations.** `componentDidMount` of Settings (loading the passphrase flag and the name) and the screen's other handlers are not part of this model.
- Settings.SettingsScreen.UpdateAddressType: rescans the updated tree. The component reads its wallets from props, and whether they are stale when `rescanWallet` runs depends on React's update timing, which is not modelled.
- ElectrumClient.TxBatchExact: a truthy response that is not an object contributes no fields. `Object.assign` copies none from a number or boolean, but it copies a string's or an array's elements as fields "0", "1", and so on. A string is the usual reply, since `verbose` defaults to false. The aliasing of `Object.assign`, which mutates the caller's transaction objects, is not modelled.
- Settings.CollectNewData: entries whose key is not a non-empty string are skipped, as falsy keys are in the code. Number keys, which JavaScript would turn into strings, are not modelled.
- Settings.GetWalletName: a `walletOrder` that is a string is treated like any other non-array (`indexOf` on a string is not modelled). The outer `catch` that returns "?" cannot be reached once a non-array order yields no name.
- TransactionDetail.IsActiveUtxo: lists are arrays of values. A string in place of the array is not modelled.
- TransactionDetail.IsBlacklisted: the blacklist is either an array of values or unreadable. A string blacklist is not modelled; on a string, JavaScript's `includes` is a substring test.
- Settings.NameStaysShort: string length is counted in characters, not UTF-16 code units.
- TransactionDetail.OtherActionPassesFloor: only the two actions the buttons send are given the floor property. Other strings are modelled as the code treats them.

=== FILE: completion.dfy ===
/**
 * The batch methods of the Electrum client fire one request per descriptor
 * and push each descriptor's rows into a shared array from inside its own
 * promise callback, so the rows land in the order the requests settle.
 * A completion order is a permutation of the descriptor indices; `Gather`
 * is the array the callbacks build when they run in that order.
 */
module Completion {

  /** The indices 0 .. n-1 in issue order. */
  function Indices(n: nat): (r: seq<nat>)
    ensures |r| == n
    ensures forall i :: 0 <= i < n ==> r[i] == i
  {
    seq(n, i requires 0 <= i < n => i as nat)
  }

  /** Every index in `order` is below `n`. */
  predicate Below(order: seq<nat>, n: nat)
  {
    forall k :: 0 <= k < |order| ==> order[k] < n
  }

  /** `order` names every index below `n` exactly once. */
  ghost predicate IsCompletionOrder(order: seq<nat>, n: nat)
  {
    Below(order, n) && multiset(order) == multiset(Indices(n))
  }

  lemma BelowSplit(order: seq<nat>, n: nat, k: nat)
    requires Below(order, n) && k <= |order|
    ensures Below(order[..k], n) && Below(order[k..], n)
  {
  }

  lemma BelowJoin(o1: seq<nat>, o2: seq<nat>, n: nat)
    requires Below(o1, n) && Below(o2, n)
    ensures Below(o1 + o2, n)
  {
  }

  /** The parts concatenated in the given order. */
  function Gather<R>(parts: seq<seq<R>>, order: seq<nat>): seq<R>
    requires Below(order, |parts|)
  {
    if order == [] then []
    else Gather(parts, order[..|order| - 1]) + parts[order[|order| - 1]]
  }

  /** The parts concatenated in index order. */
  function Flatten<R>(parts: seq<seq<R>>): seq<R>
  {
    if parts == [] then [] else Flatten(parts[..|parts| - 1]) + parts[|parts| - 1]
  }

  /** The sum of the lengths of the parts. */
  function TotalLength<R>(parts: seq<seq<R>>): nat
  {
    if parts == [] then 0 else TotalLength(parts[..|parts| - 1]) + |parts[|parts| - 1]|
  }

  lemma {:induction false} GatherAppend<R>(parts: seq<seq<R>>, o1: seq<nat>, o2: seq<nat>)
    requires Below(o1, |parts|) && Below(o2, |parts|)
    ensures Below(o1 + o2, |parts|)
    ensures Gather(parts, o1 + o2) == Gather(parts, o1) + Gather(parts, o2)
  {
    BelowJoin(o1, o2, |parts|);
    if o2 == [] {
      assert o1 + o2 == o1;
    } else {
      var last := |o2| - 1;
      BelowSplit(o2, |parts|, last);
      assert (o1 + o2)[..|o1 + o2| - 1] == o1 + o2[..last];
      GatherAppend(parts, o1, o2[..last]);
    }
  }

  /** Gathering only indices below `m` looks at the first `m` parts only. */
  lemma {:induction false} GatherNarrow<R>(parts: seq<seq<R>>, order: seq<nat>, m: nat)
    requires m <= |parts|
    requires Below(order, m)
    ensures Below(order, |parts|)
    ensures Gather(parts, order) == Gather(parts[..m], order)
  {
    if order != [] {
      BelowSplit(order, m, |order| - 1);
      GatherNarrow(parts, order[..|order| - 1], m);
    }
  }

  lemma InIndicesBelow(x: nat, n: nat)
    requires x in multiset(Indices(n))
    ensures x < n
  {
    assert x in Indices(n);
  }

  /** Taking out one position takes one copy of its element out of the multiset. */
  lemma RemoveAt(order: seq<nat>, p: nat)
    requires p < |order|
    ensures multiset(order[..p] + order[p + 1..]) == multiset(order) - multiset{order[p]}
  {
    assert order == order[..p] + [order[p]] + order[p + 1..];
  }

  /** The last index settles somewhere; the other calls form a completion order of their own. */
  lemma TopPosition(order: seq<nat>, n: nat) returns (p: nat)
    requires IsCompletionOrder(order, n) && n > 0
    ensures p < |order| && order[p] == n - 1
    ensures IsCompletionOrder(order[..p] + order[p + 1..], n - 1)
  {
    var top: nat := n - 1;
    assert multiset(Indices(n)) == multiset(Indices(top)) + multiset{top} by {
      assert Indices(n) == Indices(top) + [top];
    }
    assert top in multiset(order);
    p :| 0 <= p < |order| && order[p] == top;
    var rest := order[..p] + order[p + 1..];
    assert multiset(rest) == multiset(Indices(top)) by {
      RemoveAt(order, p);
    }
    forall k | 0 <= k < |rest|
      ensures rest[k] < top
    {
      assert rest[k] in multiset(rest);
      InIndicesBelow(rest[k], top);
    }
  }

  /** Taking out the call that settled at position p takes out exactly its rows. */
  lemma GatherWithout<R>(parts: seq<seq<R>>, order: seq<nat>, p: nat)
    requires Below(order, |parts|) && p < |order|
    ensures Below(order[..p] + order[p + 1..], |parts|)
    ensures multiset(Gather(parts, order))
         == multiset(Gather(parts, order[..p] + order[p + 1..])) + multiset(parts[order[p]])
  {
    GatherBlock(parts, order, p);
    GatherAppend(parts, order[..p], order[p + 1..]);
  }

  /**
   * Whatever order the calls settle in, the gathered rows are, as a
   * multiset, the rows of all parts.
   */
  lemma {:induction false} GatherIsPermutation<R>(parts: seq<seq<R>>, order: seq<nat>)
    requires IsCompletionOrder(order, |parts|)
    ensures multiset(Gather(parts, order)) == multiset(Flatten(parts))
  {
    var n := |parts|;
    if n == 0 {
      assert |multiset(order)| == 0;
      assert order == [];
    } else {
      var top := n - 1;
      var p := TopPosition(order, n);
      var rest := order[..p] + order[p + 1..];
      GatherWithout(parts, order, p);
      GatherNarrow(parts, rest, top);
      GatherIsPermutation(parts[..top], rest);
      assert parts[..top][..|parts[..top]|] == parts[..top];
    }
  }

  /** Whatever the completion order, the row count is the sum of the parts' lengths. */
  lemma GatherLength<R>(parts: seq<seq<R>>, order: seq<nat>)
    requires IsCompletionOrder(order, |parts|)
    ensures |Gather(parts, order)| == TotalLength(parts)
  {
    GatherIsPermutation(parts, order);
    assert |multiset(Gather(parts, order))| == |multiset(Flatten(parts))|;
    FlattenLength(parts);
  }

  lemma {:induction false} FlattenLength<R>(parts: seq<seq<R>>)
    ensures |Flatten(parts)| == TotalLength(parts)
  {
    if parts != [] {
      FlattenLength(parts[..|parts| - 1]);
    }
  }

  /**
   * The rows of the part that settled k-th form one contiguous block, in the
   * part's own order, after the blocks of the parts that settled earlier.
   */
  lemma GatherBlock<R>(parts: seq<seq<R>>, order: seq<nat>, k: nat)
    requires Below(order, |parts|)
    requires k < |order|
    ensures Below(order[..k], |parts|) && Below(order[k + 1..], |parts|)
    ensures Gather(parts, order)
         == Gather(parts, order[..k]) + parts[order[k]] + Gather(parts, order[k + 1..])
  {
    var pre, post := order[..k], order[k + 1..];
    assert Below(pre, |parts|) && Below(post, |parts|) by {
      BelowSplit(order, |parts|, k);
      BelowSplit(order, |parts|, k + 1);
    }
    assert order == pre + [order[k]] + post;
    GatherAround(parts, pre, order[k], post);
  }

  /** The rows gathered around one part are the rows before it, the part, and the rows after it. */
  lemma GatherAround<R>(parts: seq<seq<R>>, pre: seq<nat>, i: nat, post: seq<nat>)
    requires Below(pre, |parts|) && i < |parts| && Below(post, |parts|)
    ensures Below(pre + [i] + post, |parts|)
    ensures Gather(parts, pre + [i] + post) == Gather(parts, pre) + parts[i] + Gather(parts, post)
  {
    GatherSnoc(parts, pre, i);
    GatherAppend(parts, pre + [i], post);
  }

  /** Gathering one more part appends that part. */
  lemma GatherSnoc<R>(parts: seq<seq<R>>, order: seq<nat>, i: nat)
    requires Below(order, |parts|) && i < |parts|
    ensures Below(order + [i], |parts|)
    ensures Gather(parts, order + [i]) == Gather(parts, order) + parts[i]
  {
    BelowJoin(order, [i], |parts|);
    assert (order + [i])[..|order|] == order;
  }

  /** Settling in issue order yields the parts in index order. */
  lemma {:induction false} GatherInIssueOrder<R>(parts: seq<seq<R>>)
    ensures IsCompletionOrder(Indices(|parts|), |parts|)
    ensures Gather(parts, Indices(|parts|)) == Flatten(parts)
  {
    if parts != [] {
      var top := |parts| - 1;
      assert Indices(|parts|)[..top] == Indices(top);
      GatherNarrow(parts, Indices(top), top);
      GatherInIssueOrder(parts[..top]);
      assert parts[..top][..|parts[..top]|] == parts[..top];
    }
  }

  /** Whatever the completion order, a row is gathered exactly when some part holds it. */
  lemma GatherMembers<R>(parts: seq<seq<R>>, order: seq<nat>, x: R)
    requires IsCompletionOrder(order, |parts|)
    ensures x in Gather(parts, order) <==> exists i :: 0 <= i < |parts| && x in parts[i]
  {
    GatherIsPermutation(parts, order);
    assert x in Gather(parts, order) <==> x in multiset(Gather(parts, order));
    assert x in Flatten(parts) <==> x in multiset(Flatten(parts));
    InFlatten(parts, x);
  }

  /** A row is in the flattened parts exactly when some part holds it. */
  lemma {:induction false} InFlatten<R>(parts: seq<seq<R>>, x: R)
    ensures x in Flatten(parts) <==> exists i :: 0 <= i < |parts| && x in parts[i]
  {
    if parts != [] {
      var top := |parts| - 1;
      var init := parts[..top];
      InFlatten(init, x);
      assert x in Flatten(parts) <==> x in Flatten(init) || x in parts[top];
      if x in Flatten(init) {
        var i :| 0 <= i < top && x in init[i];
        assert init[i] == parts[i];
      }
      if exists i :: 0 <= i < |parts| && x in parts[i] {
        var i :| 0 <= i < |parts| && x in parts[i];
        if i < top {
          assert init[i] == parts[i];
        }
      }
    }
  }
}

=== FILE: ecoincore.dfy ===
/**
 * The exchange-rate feed (src/utils/ecoincore.js): a DDP listener that
 * remembers which ticker each ExchangeRates document belongs to and turns
 * rate changes into `EXCHANGE_RATES_UPDATED` actions, plus the hand-off of
 * the Redux store the actions are dispatched to.
 *
 * The module-level variables `store`, `documentKeys` and
 * `storeCheckInterval` become the fields of a `Core` object. The Meteor
 * connection is not modelled: events arrive as method arguments, and
 * `global.reduxStore` is passed in at each poll.
 */
module ECoinCore {
  import opened Js
  import opened Rates

  const EXCHANGE_RATES_COLLECTION := "ExchangeRates"
  const REMOVED := "removed"

  /**
   * A candidate store: its identity, and whether its `dispatch` property is
   * a function. A falsy candidate is None.
   */
  datatype StoreRef = StoreRef(id: nat, dispatchIsFunction: bool)

  /** `s && typeof s.dispatch === 'function'`. */
  predicate Usable(s: Option<StoreRef>)
  {
    s.Some? && s.value.dispatchIsFunction
  }

  /** An action handed to a store's `dispatch`. */
  datatype Delivery = Delivery(storeId: nat, action: Action)

  /** The `documentKeys` map after an event, and the action it dispatches, if any. */
  datatype Tracked = Tracked(keys: map<Value, Value>, action: Option<Action>)

  /** The ticker remembered for a document id, if it is truthy. */
  predicate KnownTicker(keys: map<Value, Value>, id: Value)
  {
    id in keys && Truthy(keys[id])
  }

  /** The body of the listener registered for every DDP event name. */
  function Track(keys: map<Value, Value>, event: Value): Tracked
  {
    if FieldOf(event, "collection") != Str(EXCHANGE_RATES_COLLECTION) then Tracked(keys, None)
    else
      var fields := FieldOf(event, "fields");
      var id := FieldOf(event, "id");
      var ticker := FieldOf(fields, "ticker");
      var keys' := if Truthy(ticker) then keys[id := ticker] else keys;
      if !KnownTicker(keys', id) then Tracked(keys', None)
      else if FieldOf(event, "msg") == Str(REMOVED) then Tracked(keys', None)
      else if !Truthy(FieldOf(fields, "rate")) then Tracked(keys', None)
      else Tracked(keys', Some(Action(ExchangeRatesUpdated, Spread(fields)["ticker" := keys'[id]])))
  }

  /** Events of any other collection change nothing and dispatch nothing. */
  lemma OtherCollectionsIgnored(keys: map<Value, Value>, event: Value)
    requires FieldOf(event, "collection") != Str(EXCHANGE_RATES_COLLECTION)
    ensures Track(keys, event) == Tracked(keys, None)
  {
  }

  /**
   * A truthy ticker in the fields is recorded before any filtering, so
   * removed and rate-less events set the mapping too; without one the map
   * is unchanged.
   */
  lemma TickerRecordedFirst(keys: map<Value, Value>, event: Value)
    requires FieldOf(event, "collection") == Str(EXCHANGE_RATES_COLLECTION)
    ensures Truthy(FieldOf(FieldOf(event, "fields"), "ticker")) ==>
      Track(keys, event).keys == keys[FieldOf(event, "id") := FieldOf(FieldOf(event, "fields"), "ticker")]
    ensures !Truthy(FieldOf(FieldOf(event, "fields"), "ticker")) ==> Track(keys, event).keys == keys
  {
  }

  /**
   * An event dispatches exactly when it belongs to ExchangeRates, its
   * document has a known ticker, it is not a removal and its rate is truthy
   * (so a rate of 0 never dispatches). The action then carries the event's
   * fields with `ticker` replaced by the remembered one.
   */
  lemma DispatchExactly(keys: map<Value, Value>, event: Value)
    ensures Track(keys, event).action.Some? <==>
      FieldOf(event, "collection") == Str(EXCHANGE_RATES_COLLECTION)
      && KnownTicker(Track(keys, event).keys, FieldOf(event, "id"))
      && FieldOf(event, "msg") != Str(REMOVED)
      && Truthy(FieldOf(FieldOf(event, "fields"), "rate"))
    ensures Track(keys, event).action.Some? ==>
      var a := Track(keys, event).action.value;
      var fields := Spread(FieldOf(event, "fields"));
      a.kind == ExchangeRatesUpdated
      && a.payload.Keys == fields.Keys + {"ticker"}
      && a.payload["ticker"] == Track(keys, event).keys[FieldOf(event, "id")]
      && (forall k :: k in fields && k != "ticker" ==> a.payload[k] == fields[k])
  {
  }

  /**
   * A change event that no longer carries the ticker is still filed under the
   * ticker an earlier event recorded for the same document.
   */
  lemma TickerRemembered(keys: map<Value, Value>, first: Value, later: Value)
    requires FieldOf(first, "collection") == Str(EXCHANGE_RATES_COLLECTION)
    requires Truthy(FieldOf(FieldOf(first, "fields"), "ticker"))
    requires FieldOf(later, "collection") == Str(EXCHANGE_RATES_COLLECTION)
    requires FieldOf(later, "id") == FieldOf(first, "id")
    requires !Truthy(FieldOf(FieldOf(later, "fields"), "ticker"))
    requires FieldOf(later, "msg") != Str(REMOVED)
    requires Truthy(FieldOf(FieldOf(later, "fields"), "rate"))
    ensures var a := Track(Track(keys, first).keys, later).action;
      a.Some? && a.value.payload["ticker"] == FieldOf(FieldOf(first, "fields"), "ticker")
  {
  }

  /** Every ticker the map holds is truthy, and tracking keeps it so. */
  predicate TickersTruthy(keys: map<Value, Value>)
  {
    forall id :: id in keys ==> Truthy(keys[id])
  }

  lemma TrackKeepsTickersTruthy(keys: map<Value, Value>, event: Value)
    requires TickersTruthy(keys)
    ensures TickersTruthy(Track(keys, event).keys)
    ensures keys.Keys <= Track(keys, event).keys.Keys
  {
  }

  /**
   * From event to reducer: the record the rates reducer files for a
   * dispatched action is under the remembered ticker and holds the event's
   * rate.
   */
  lemma RateReachesReducer(keys: map<Value, Value>, event: Value, state: RatesState)
    requires Track(keys, event).action.Some?
    ensures var a := Track(keys, event).action.value;
      var t := Track(keys, event).keys[FieldOf(event, "id")];
      TickerOf(a.payload) == t
      && "rate" in Reduce(state, a)[t]
      && Reduce(state, a)[t]["rate"] == FieldOf(FieldOf(event, "fields"), "rate")
  {
    DispatchExactly(keys, event);
  }

  class Core {
    /** The store actions are dispatched to; None while `store` is null. */
    var store: Option<StoreRef>
    /** `documentKeys`: document id to ticker, keyed by the id as a value rather than by its string form. */
    var documentKeys: map<Value, Value>
    /** Whether the 500 ms store-check interval is still running. */
    var polling: bool
    /** Every action handed to a store, in order. */
    var delivered: seq<Delivery>
    /** Actions dropped with a warning because no store was held. */
    var dropped: seq<Action>

    ghost predicate Valid()
      reads this
    {
      (store.Some? ==> Usable(store)) && TickersTruthy(documentKeys)
    }

    /**
     * Module load: one immediate store check, then the interval is started,
     * whatever the check found (the check cleared an interval that did not
     * exist yet).
     */
    constructor(global: Option<StoreRef>)
      ensures Valid()
      ensures store == (if Usable(global) then global else None)
      ensures documentKeys == map[] && polling && delivered == [] && dropped == []
    {
      store := None;
      documentKeys := map[];
      delivered := [];
      dropped := [];
      polling := false;
      new;
      var _ := CheckAndSetupStore(global);
      polling := true;
    }

    /** `safeDispatch(action)`: forward to the held store, or drop with a warning. */
    method SafeDispatch(action: Action)
      requires Valid()
      modifies this`delivered, this`dropped
      ensures Valid()
      ensures store.Some? ==> delivered == old(delivered) + [Delivery(store.value.id, action)] && dropped == old(dropped)
      ensures store.None? ==> delivered == old(delivered) && dropped == old(dropped) + [action]
    {
      if Usable(store) {
        delivered := delivered + [Delivery(store.value.id, action)];
      } else {
        dropped := dropped + [action];
      }
    }

    /** The ExchangeRates listener: update `documentKeys`, then dispatch if the event calls for it. */
    method OnDdpEvent(event: Value)
      requires Valid()
      modifies this`documentKeys, this`delivered, this`dropped
      ensures Valid()
      ensures documentKeys == Track(old(documentKeys), event).keys
      ensures Track(old(documentKeys), event).action.None? ==> delivered == old(delivered) && dropped == old(dropped)
      ensures Track(old(documentKeys), event).action.Some? && store.Some? ==>
        delivered == old(delivered) + [Delivery(store.value.id, Track(old(documentKeys), event).action.value)]
        && dropped == old(dropped)
      ensures Track(old(documentKeys), event).action.Some? && store.None? ==>
        delivered == old(delivered) && dropped == old(dropped) + [Track(old(documentKeys), event).action.value]
    {
      TrackKeepsTickersTruthy(documentKeys, event);
      var tracked := Track(documentKeys, event);
      documentKeys := tracked.keys;
      if tracked.action.Some? {
        SafeDispatch(tracked.action.value);
      }
    }

    /** `setupDDPEventHandlers()`: reports whether a usable store is held; it registers nothing. */
    method SetupDdpEventHandlers() returns (ok: bool)
      requires Valid()
      ensures ok <==> store.Some?
    {
      ok := Usable(store);
    }

    /** `initializeStore()`: adopt `global.reduxStore` if it has a dispatch function. */
    method InitializeStore(global: Option<StoreRef>) returns (ok: bool)
      requires Valid()
      modifies this`store
      ensures Valid()
      ensures ok <==> Usable(global)
      ensures store == if ok then global else old(store)
    {
      if Usable(global) {
        store := global;
        return true;
      }
      return false;
    }

    /** `checkAndSetupStore()`: on success, stop polling. */
    method CheckAndSetupStore(global: Option<StoreRef>) returns (ok: bool)
      requires Valid()
      modifies this`store, this`polling
      ensures Valid()
      ensures ok <==> Usable(global)
      ensures store == if ok then global else old(store)
      ensures polling == if ok then false else old(polling)
    {
      ok := InitializeStore(global);
      if ok {
        polling := false;
        var _ := SetupDdpEventHandlers();
      }
    }

    /** One tick of the 500 ms interval, reading `global.reduxStore` at that moment. */
    method PollTick(global: Option<StoreRef>) returns (ok: bool)
      requires Valid()
      requires polling
      modifies this`store, this`polling
      ensures Valid()
      ensures ok <==> Usable(global)
      ensures store == if ok then global else old(store)
      ensures polling <==> !ok
    {
      ok := CheckAndSetupStore(global);
    }

    /** `updateStoreReference(newStore)`: install a usable store; polling is left as it is. */
    method UpdateStoreReference(newStore: Option<StoreRef>) returns (ok: bool)
      requires Valid()
      modifies this`store
      ensures Valid()
      ensures ok <==> Usable(newStore)
      ensures store == if ok then newStore else old(store)
    {
      if Usable(newStore) {
        store := newStore;
        var _ := SetupDdpEventHandlers();
        return true;
      }
      return false;
    }

    /** `initializeWithStore(reduxStore)`: install a usable store and stop polling. */
    method InitializeWithStore(reduxStore: Option<StoreRef>) returns (ok: bool)
      requires Valid()
      modifies this`store, this`polling
      ensures Valid()
      ensures ok <==> Usable(reduxStore)
      ensures store == if ok then reduxStore else old(store)
      ensures polling == if ok then false else old(polling)
    {
      if Usable(reduxStore) {
        store := reduxStore;
        if polling {
          polling := false;
        }
        var _ := SetupDdpEventHandlers();
        return true;
      }
      return false;
    }
  }
}

=== FILE: electrum_client.dfy ===
/**
 * The Electrum client subclass (src/utils/electrum/client/index.js): the
 * batch methods that fan one request out per address descriptor, the
 * reconnect policy run when the socket closes, the keep-alive timer and the
 * `close()` kill switch.
 *
 * The parent client (socket, framing, id correlation, subscription
 * emitter) is not part of this model: a request is handed to it as a
 * `Call` and comes back as a `Reply` chosen by the caller of the model.
 * Time is an explicit integer clock in milliseconds, and the order in which
 * concurrent requests settle is an explicit permutation of their indices.
 */
module ElectrumClient {
  import opened Js
  import opened Completion

  const SERVER_VERSION := "server.version"
  const SERVER_PING := "server.ping"
  const GET_BALANCE := "blockchain.scripthash.get_balance"
  const GET_HISTORY := "blockchain.scripthash.get_history"
  const GET_MEMPOOL := "blockchain.scripthash.get_mempool"
  const LISTUNSPENT := "blockchain.scripthash.listunspent"
  const TRANSACTION_GET := "blockchain.transaction.get"
  const HEADERS_SUBSCRIBE := "blockchain.headers.subscribe"
  const SCRIPTHASH_SUBSCRIBE := "blockchain.scripthash.subscribe"

  /** Delay of the keep-alive timer. */
  const KEEP_ALIVE_DELAY := 5000
  /** Idle time after the last call beyond which the keep-alive pings. */
  const IDLE_LIMIT := 5000
  const DEFAULT_MAX_RETRY := 1000

  /** A request handed to the parent client. */
  datatype Call = Call(rpc: string, params: seq<Value>)

  /** How the parent's request promise settled. */
  datatype Reply = Failed | Settled(response: Value)

  // ---------------------------------------------------------------------
  // Batch queries
  // ---------------------------------------------------------------------

  /** The identifying fields a batch copies from a descriptor into each of its rows. */
  datatype Tags = Tags(scriptHash: Value, address: Value, path: Value)

  datatype BalanceRow = BalanceRow(confirmed: Value, unconfirmed: Value, tags: Tags)
  datatype HistoryRow = HistoryRow(height: Value, txHash: Value, tags: Tags)
  datatype UtxoRow = UtxoRow(height: Value, txHash: Value, txPos: Value, value: Value, tags: Tags)

  /** The array of rows, or the `{ error: true, data: e }` object of the outer catch. */
  datatype BatchResult<R> = Rows(rows: seq<R>) | ErrorResult

  /** A missing field of a descriptor destructured with the default `""`. */
  function Defaulted(v: Value): Value
  {
    if v.Undefined? then Str("") else v
  }

  /**
   * The tags read from one descriptor, or None when reading them throws.
   * With `defaulted` (getBalance, getHistory, getMempool) the descriptor is a
   * parameter pattern `{ scriptHash = "", address = "", path = "" } = {}`: an
   * undefined element becomes `{}` and only `null` throws. Without it
   * (listunspent) the pattern has no defaults, so `null` and `undefined`
   * both throw.
   */
  function TagsOf(d: Value, defaulted: bool): (r: Option<Tags>)
    ensures r.None? <==> (if defaulted then d.Null? else Nullish(d))
  {
    if defaulted then
      if d.Null? then None
      else Some(Tags(Defaulted(FieldOf(d, "scriptHash")), Defaulted(FieldOf(d, "address")),
                     Defaulted(FieldOf(d, "path"))))
    else if Nullish(d) then None
    else Some(Tags(FieldOf(d, "scriptHash"), FieldOf(d, "address"), FieldOf(d, "path")))
  }

  /** The request a descriptor's callback sends, if it gets that far. */
  function ScripthashCalls(rpc: string, descs: seq<Value>, defaulted: bool): (r: seq<Call>)
    ensures |r| <= |descs|
  {
    if descs == [] then []
    else
      var last := descs[|descs| - 1];
      ScripthashCalls(rpc, descs[..|descs| - 1], defaulted)
        + match TagsOf(last, defaulted)
          case None => []
          case Some(t) => [Call(rpc, [t.scriptHash])]
  }

  /** For each descriptor: did its request reach the parent and settle? */
  function Succeeded(descs: seq<Value>, replies: seq<Reply>, defaulted: bool): (ok: seq<bool>)
    requires |replies| == |descs|
    ensures |ok| == |descs|
  {
    seq(|descs|, i requires 0 <= i < |descs| => TagsOf(descs[i], defaulted).Some? && replies[i].Settled?)
  }

  // --- getBalance ---

  /** The rows one descriptor pushes: one balance record, or none. */
  function BalanceContribution(d: Value, r: Reply): seq<BalanceRow>
  {
    match TagsOf(d, true)
    case None => []
    case Some(t) =>
      if r.Settled? && !Nullish(r.response)
      then [BalanceRow(FieldOf(r.response, "confirmed"), FieldOf(r.response, "unconfirmed"), t)]
      else []
  }

  function BalanceParts(descs: seq<Value>, replies: seq<Reply>): (parts: seq<seq<BalanceRow>>)
    requires |replies| == |descs|
    ensures |parts| == |descs|
  {
    seq(|descs|, i requires 0 <= i < |descs| => BalanceContribution(descs[i], replies[i]))
  }

  /** What `blockchainScripthashes_getBalance` resolves to. */
  function BalanceBatch(descs: seq<Value>, replies: seq<Reply>, order: seq<nat>): BatchResult<BalanceRow>
    requires |replies| == |descs| && Below(order, |descs|)
  {
    if Null in descs then ErrorResult else Rows(Gather(BalanceParts(descs, replies), order))
  }

  /** A descriptor whose balance request settled with a destructurable response. */
  predicate BalanceSucceeded(d: Value, r: Reply)
  {
    !d.Null? && r.Settled? && !Nullish(r.response)
  }

  /** The record built for such a descriptor. */
  function BalanceRecord(d: Value, r: Reply): BalanceRow
    requires BalanceSucceeded(d, r)
  {
    BalanceRow(FieldOf(r.response, "confirmed"), FieldOf(r.response, "unconfirmed"), TagsOf(d, true).value)
  }

  function CountBalanceSuccesses(descs: seq<Value>, replies: seq<Reply>): nat
    requires |replies| == |descs|
  {
    if descs == [] then 0
    else
      var n := |descs| - 1;
      CountBalanceSuccesses(descs[..n], replies[..n]) + (if BalanceSucceeded(descs[n], replies[n]) then 1 else 0)
  }

  /**
   * The push loop of `blockchainScripthashes_getBalance`, run in the order
   * the per-descriptor callbacks resume.
   */
  method CollectBalances(descs: seq<Value>, replies: seq<Reply>, order: seq<nat>)
    returns (out: BatchResult<BalanceRow>)
    requires |replies| == |descs|
    requires IsCompletionOrder(order, |descs|)
    ensures out == BalanceBatch(descs, replies, order)
  {
    var parts := BalanceParts(descs, replies);
    var result: seq<BalanceRow> := [];
    for k := 0 to |order|
      invariant Below(order[..k], |descs|)
      invariant result == Gather(parts, order[..k])
    {
      var i := order[k];
      assert order[..k + 1][..k] == order[..k];
      match TagsOf(descs[i], true)
      case None =>
      case Some(t) =>
        var response := replies[i];
        if response.Settled? && !Nullish(response.response) {
          var data := BalanceRow(FieldOf(response.response, "confirmed"),
                                 FieldOf(response.response, "unconfirmed"), t);
          result := result + [data];
        }
    }
    assert order[..|order|] == order;
    if Null in descs {
      out := ErrorResult;
    } else {
      out := Rows(result);
    }
  }

  lemma {:induction false} BalancePartsCount(descs: seq<Value>, replies: seq<Reply>)
    requires |replies| == |descs|
    ensures TotalLength(BalanceParts(descs, replies)) == CountBalanceSuccesses(descs, replies)
  {
    if descs != [] {
      var n := |descs| - 1;
      assert BalanceParts(descs, replies)[..n] == BalanceParts(descs[..n], replies[..n]);
      BalancePartsCount(descs[..n], replies[..n]);
    }
  }

  /**
   * getBalance: unless some descriptor is `null`, the call resolves to an
   * array holding exactly one record per descriptor whose request settled,
   * in any completion order; failed descriptors are left out.
   */
  lemma BalanceBatchExact(descs: seq<Value>, replies: seq<Reply>, order: seq<nat>)
    requires |replies| == |descs|
    requires IsCompletionOrder(order, |descs|)
    ensures BalanceBatch(descs, replies, order).ErrorResult? <==> Null in descs
    ensures Null !in descs ==>
      |BalanceBatch(descs, replies, order).rows| == CountBalanceSuccesses(descs, replies)
    ensures Null !in descs ==> forall row ::
      row in BalanceBatch(descs, replies, order).rows <==>
        exists i :: 0 <= i < |descs| && BalanceSucceeded(descs[i], replies[i])
                    && row == BalanceRecord(descs[i], replies[i])
  {
    var parts := BalanceParts(descs, replies);
    GatherLength(parts, order);
    BalancePartsCount(descs, replies);
    forall row
      ensures row in Gather(parts, order) <==>
        exists i :: 0 <= i < |descs| && BalanceSucceeded(descs[i], replies[i])
                    && row == BalanceRecord(descs[i], replies[i])
    {
      GatherMembers(parts, order, row);
      if exists i :: 0 <= i < |parts| && row in parts[i] {
        var i :| 0 <= i < |parts| && row in parts[i];
        assert BalanceSucceeded(descs[i], replies[i]) && row == BalanceRecord(descs[i], replies[i]);
      }
      if exists i :: 0 <= i < |descs| && BalanceSucceeded(descs[i], replies[i])
                     && row == BalanceRecord(descs[i], replies[i]) {
        var i :| 0 <= i < |descs| && BalanceSucceeded(descs[i], replies[i])
                 && row == BalanceRecord(descs[i], replies[i]);
        assert row in parts[i];
      }
    }
  }

  // --- getHistory, getMempool and listunspent ---

  function HistoryRowOf(entry: Value, t: Tags): HistoryRow
  {
    HistoryRow(FieldOf(entry, "height"), FieldOf(entry, "tx_hash"), t)
  }

  function UtxoRowOf(entry: Value, t: Tags): UtxoRow
  {
    UtxoRow(FieldOf(entry, "height"), FieldOf(entry, "tx_hash"), FieldOf(entry, "tx_pos"),
            FieldOf(entry, "value"), t)
  }

  /**
   * The entries a response is mapped over: those of an array. A `null` or
   * `undefined` response throws at `.length`, a non-empty string throws at
   * `.map`, and anything else has no positive length: none yields entries.
   */
  function Entries(r: Reply): seq<Value>
  {
    if r.Settled? && r.response.Arr? then r.response.items else []
  }

  /** The rows built from the entries, in response order; a `null` entry throws and is skipped. */
  function EntryRows<R>(items: seq<Value>, t: Tags, build: (Value, Tags) -> R): seq<R>
  {
    if items == [] then []
    else
      var n := |items| - 1;
      EntryRows(items[..n], t, build) + (if Nullish(items[n]) then [] else [build(items[n], t)])
  }

  function EntryContribution<R>(d: Value, r: Reply, defaulted: bool, build: (Value, Tags) -> R): seq<R>
  {
    match TagsOf(d, defaulted)
    case None => []
    case Some(t) => EntryRows(Entries(r), t, build)
  }

  function EntryParts<R>(descs: seq<Value>, replies: seq<Reply>, defaulted: bool, build: (Value, Tags) -> R)
    : (parts: seq<seq<R>>)
    requires |replies| == |descs|
    ensures |parts| == |descs|
  {
    seq(|descs|, i requires 0 <= i < |descs| => EntryContribution(descs[i], replies[i], defaulted, build))
  }

  /**
   * What getHistory and getMempool (`defaulted`, rows built by HistoryRowOf)
   * and listunspent (not `defaulted`, rows built by UtxoRowOf) resolve to.
   * Only the defaulted variants can reject, on a `null` descriptor.
   */
  function EntryBatch<R>(descs: seq<Value>, replies: seq<Reply>, order: seq<nat>, defaulted: bool,
                         build: (Value, Tags) -> R): BatchResult<R>
    requires |replies| == |descs| && Below(order, |descs|)
  {
    if defaulted && Null in descs then ErrorResult
    else Rows(Gather(EntryParts(descs, replies, defaulted, build), order))
  }

  /** The inner push loop over one response's entries. */
  method CollectResponseRows<R>(items: seq<Value>, t: Tags, build: (Value, Tags) -> R) returns (rows: seq<R>)
    ensures rows == EntryRows(items, t, build)
  {
    rows := [];
    for j := 0 to |items|
      invariant rows == EntryRows(items[..j], t, build)
    {
      assert items[..j + 1][..j] == items[..j];
      if !Nullish(items[j]) {
        rows := rows + [build(items[j], t)];
      }
    }
    assert items[..|items|] == items;
  }

  /** The nested push loops shared by getHistory, getMempool and listunspent. */
  method CollectEntryRows<R>(descs: seq<Value>, replies: seq<Reply>, order: seq<nat>, defaulted: bool,
                             build: (Value, Tags) -> R)
    returns (out: BatchResult<R>)
    requires |replies| == |descs|
    requires IsCompletionOrder(order, |descs|)
    ensures out == EntryBatch(descs, replies, order, defaulted, build)
  {
    var parts := EntryParts(descs, replies, defaulted, build);
    var result: seq<R> := [];
    for k := 0 to |order|
      invariant Below(order[..k], |descs|)
      invariant result == Gather(parts, order[..k])
    {
      var i := order[k];
      assert order[..k + 1][..k] == order[..k];
      match TagsOf(descs[i], defaulted)
      case None =>
      case Some(t) =>
        var rows := CollectResponseRows(Entries(replies[i]), t, build);
        result := result + rows;
    }
    assert order[..|order|] == order;
    if defaulted && Null in descs {
      out := ErrorResult;
    } else {
      out := Rows(result);
    }
  }

  /** A row is built from a non-null entry of the response, and every such entry gives one. */
  lemma {:induction false} InEntryRows<R>(items: seq<Value>, t: Tags, build: (Value, Tags) -> R, row: R)
    ensures row in EntryRows(items, t, build) <==>
      exists j :: 0 <= j < |items| && !Nullish(items[j]) && row == build(items[j], t)
  {
    if items != [] {
      var n := |items| - 1;
      InEntryRows(items[..n], t, build, row);
      if exists j :: 0 <= j < |items| && !Nullish(items[j]) && row == build(items[j], t) {
        var j :| 0 <= j < |items| && !Nullish(items[j]) && row == build(items[j], t);
        if j < n {
          assert items[..n][j] == items[j];
        }
      }
    }
  }

  /** With no `null` entries, a response of length m gives m rows, in response order. */
  lemma {:induction false} EntryRowsInResponseOrder<R>(items: seq<Value>, t: Tags, build: (Value, Tags) -> R)
    requires forall j :: 0 <= j < |items| ==> !Nullish(items[j])
    ensures |EntryRows(items, t, build)| == |items|
    ensures forall j :: 0 <= j < |items| ==> EntryRows(items, t, build)[j] == build(items[j], t)
  {
    if items != [] {
      EntryRowsInResponseOrder(items[..|items| - 1], t, build);
    }
  }

  /**
   * getHistory / getMempool / listunspent: the row count is the total, over
   * the descriptors, of the rows each contributes whatever the completion
   * order, and every row is an entry of a settled response tagged with the
   * fields of the descriptor it was requested for.
   */
  lemma EntryBatchExact<R>(descs: seq<Value>, replies: seq<Reply>, order: seq<nat>, defaulted: bool,
                           build: (Value, Tags) -> R)
    requires |replies| == |descs|
    requires IsCompletionOrder(order, |descs|)
    ensures EntryBatch(descs, replies, order, defaulted, build).ErrorResult? <==> defaulted && Null in descs
    ensures !(defaulted && Null in descs) ==>
      |EntryBatch(descs, replies, order, defaulted, build).rows|
        == TotalLength(EntryParts(descs, replies, defaulted, build))
    ensures !(defaulted && Null in descs) ==> forall row ::
      row in EntryBatch(descs, replies, order, defaulted, build).rows <==>
        exists i, j :: 0 <= i < |descs| && TagsOf(descs[i], defaulted).Some? && replies[i].Settled?
                       && replies[i].response.Arr? && 0 <= j < |replies[i].response.items|
                       && !Nullish(replies[i].response.items[j])
                       && row == build(replies[i].response.items[j], TagsOf(descs[i], defaulted).value)
  {
    var parts := EntryParts(descs, replies, defaulted, build);
    GatherLength(parts, order);
    forall row
      ensures row in Gather(parts, order) <==>
        exists i, j :: 0 <= i < |descs| && TagsOf(descs[i], defaulted).Some? && replies[i].Settled?
                       && replies[i].response.Arr? && 0 <= j < |replies[i].response.items|
                       && !Nullish(replies[i].response.items[j])
                       && row == build(replies[i].response.items[j], TagsOf(descs[i], defaulted).value)
    {
      GatherMembers(parts, order, row);
      if exists i :: 0 <= i < |parts| && row in parts[i] {
        var i :| 0 <= i < |parts| && row in parts[i];
        var t := TagsOf(descs[i], defaulted).value;
        InEntryRows(Entries(replies[i]), t, build, row);
      }
      if exists i, j :: 0 <= i < |descs| && TagsOf(descs[i], defaulted).Some? && replies[i].Settled?
                       && replies[i].response.Arr? && 0 <= j < |replies[i].response.items|
                       && !Nullish(replies[i].response.items[j])
                       && row == build(replies[i].response.items[j], TagsOf(descs[i], defaulted).value) {
        var i, j :| 0 <= i < |descs| && TagsOf(descs[i], defaulted).Some? && replies[i].Settled?
                       && replies[i].response.Arr? && 0 <= j < |replies[i].response.items|
                       && !Nullish(replies[i].response.items[j])
                       && row == build(replies[i].response.items[j], TagsOf(descs[i], defaulted).value);
        InEntryRows(Entries(replies[i]), TagsOf(descs[i], defaulted).value, build, row);
        assert row in parts[i];
      }
    }
  }

  /**
   * Within one descriptor the rows keep response order: whatever position k
   * a descriptor settled at, its rows form one block of the output.
   */
  lemma EntryBatchBlocks<R>(descs: seq<Value>, replies: seq<Reply>, order: seq<nat>, defaulted: bool,
                            build: (Value, Tags) -> R, k: nat)
    requires |replies| == |descs|
    requires IsCompletionOrder(order, |descs|)
    requires !(defaulted && Null in descs)
    requires k < |order|
    ensures Below(order[..k], |descs|) && Below(order[k + 1..], |descs|)
    ensures EntryBatch(descs, replies, order, defaulted, build).rows
         == Gather(EntryParts(descs, replies, defaulted, build), order[..k])
          + EntryContribution(descs[order[k]], replies[order[k]], defaulted, build)
          + Gather(EntryParts(descs, replies, defaulted, build), order[k + 1..])
  {
    GatherBlock(EntryParts(descs, replies, defaulted, build), order, k);
  }

  // --- transactions get ---

  /**
   * `Object.assign(tx, response)`: the transaction with the response's
   * fields copied over it, response fields winning.
   */
  function TxContribution(tx: Value, r: Reply): seq<Object>
  {
    if Nullish(tx) then []
    else if r.Settled? && Truthy(r.response) then [Spread(tx) + Spread(r.response)]
    else []
  }

  function TxParts(txs: seq<Value>, replies: seq<Reply>): (parts: seq<seq<Object>>)
    requires |replies| == |txs|
    ensures |parts| == |txs|
  {
    seq(|txs|, i requires 0 <= i < |txs| => TxContribution(txs[i], replies[i]))
  }

  function TxCalls(txs: seq<Value>, verbose: bool): (r: seq<Call>)
    ensures |r| <= |txs|
  {
    if txs == [] then []
    else
      var last := txs[|txs| - 1];
      TxCalls(txs[..|txs| - 1], verbose)
        + (if Nullish(last) then [] else [Call(TRANSACTION_GET, [FieldOf(last, "tx_hash"), Bool(verbose)])])
  }

  /** What `blockchainTransactions_get` resolves to: it never rejects. */
  function TxBatch(txs: seq<Value>, replies: seq<Reply>, order: seq<nat>): seq<Object>
    requires |replies| == |txs| && Below(order, |txs|)
  {
    Gather(TxParts(txs, replies), order)
  }

  method CollectTransactions(txs: seq<Value>, replies: seq<Reply>, order: seq<nat>) returns (result: seq<Object>)
    requires |replies| == |txs|
    requires IsCompletionOrder(order, |txs|)
    ensures result == TxBatch(txs, replies, order)
  {
    var parts := TxParts(txs, replies);
    result := [];
    for k := 0 to |order|
      invariant Below(order[..k], |txs|)
      invariant result == Gather(parts, order[..k])
    {
      var i := order[k];
      assert order[..k + 1][..k] == order[..k];
      if !Nullish(txs[i]) {
        var response := replies[i];
        if response.Settled? && Truthy(response.response) {
          var data := Spread(txs[i]) + Spread(response.response);
          result := result + [data];
        }
      }
    }
    assert order[..|order|] == order;
  }

  /**
   * transactions get: every output object is a requested transaction merged
   * with its own truthy response, the response's fields winning; falsy
   * responses, failed requests and `null` entries are dropped.
   */
  lemma TxBatchExact(txs: seq<Value>, replies: seq<Reply>, order: seq<nat>)
    requires |replies| == |txs|
    requires IsCompletionOrder(order, |txs|)
    ensures forall o :: o in TxBatch(txs, replies, order) <==>
      exists i :: 0 <= i < |txs| && !Nullish(txs[i]) && replies[i].Settled? && Truthy(replies[i].response)
                  && o == Spread(txs[i]) + Spread(replies[i].response)
    ensures forall o :: o in TxBatch(txs, replies, order) ==>
      exists i :: 0 <= i < |txs| && replies[i].Settled?
                  && (forall key :: key in Spread(replies[i].response) ==> key in o && o[key] == Spread(replies[i].response)[key])
                  && (forall key :: key in Spread(txs[i]) && key !in Spread(replies[i].response) ==> key in o && o[key] == Spread(txs[i])[key])
  {
    var parts := TxParts(txs, replies);
    forall o
      ensures o in Gather(parts, order) <==>
        exists i :: 0 <= i < |txs| && !Nullish(txs[i]) && replies[i].Settled? && Truthy(replies[i].response)
                    && o == Spread(txs[i]) + Spread(replies[i].response)
    {
      GatherMembers(parts, order, o);
      if exists i :: 0 <= i < |txs| && !Nullish(txs[i]) && replies[i].Settled? && Truthy(replies[i].response)
                     && o == Spread(txs[i]) + Spread(replies[i].response) {
        var i :| 0 <= i < |txs| && !Nullish(txs[i]) && replies[i].Settled? && Truthy(replies[i].response)
                 && o == Spread(txs[i]) + Spread(replies[i].response);
        assert o in parts[i];
      }
    }
  }

  // ---------------------------------------------------------------------
  // Keep-alive and reconnect policy, as pure decisions
  // ---------------------------------------------------------------------

  /** The keep-alive timer's test: some call has been made, and none for more than IDLE_LIMIT. */
  predicate ShouldPing(timeLastCall: int, now: int)
  {
    timeLastCall != 0 && now > timeLastCall + IDLE_LIMIT
  }

  /** `{ maxRetry, callback }`; the callback itself is opaque, only its presence matters. */
  datatype Policy = Policy(maxRetry: int, hasCallback: bool)

  const DEFAULT_POLICY := Policy(DEFAULT_MAX_RETRY, false)

  /** The second argument of `initElectrum`: left out, `null`, or an object. */
  datatype PolicyArg = Omitted | NullPolicy | Given(policy: Policy)

  /** JavaScript's default parameter: only an omitted argument takes the default. */
  function EffectivePolicy(arg: PolicyArg): (r: Option<Policy>)
    ensures r.None? <==> arg.NullPolicy?
  {
    match arg
    case Omitted => Some(DEFAULT_POLICY)
    case NullPolicy => None
    case Given(p) => Some(p)
  }

  /** What the delayed `onClose` callback does. */
  datatype RetryAction = ReconnectCalled | CallbackCalled | Idle

  datatype RetryResult = RetryResult(policy: Option<Policy>, action: RetryAction)

  /**
   * The delayed branch of `onClose`. `reconnect()` re-runs `initElectrum`
   * without a policy, which installs the default before the decrement, so
   * the decrement lands on the fresh default. After `close()` `reconnect`
   * is a no-op and the decrement lands on the policy in place.
   */
  function RetryStep(policy: Option<Policy>, closed: bool): RetryResult
  {
    match policy
    case Some(p) =>
      if p.maxRetry > 0 then
        var current := if closed then p else DEFAULT_POLICY;
        RetryResult(Some(current.(maxRetry := current.maxRetry - 1)), ReconnectCalled)
      else if p.hasCallback then RetryResult(policy, CallbackCalled)
      else RetryResult(policy, Idle)
    case None =>
      RetryResult(if closed then None else Some(DEFAULT_POLICY), ReconnectCalled)
  }

  /** The totals of k successive firings of the retry timer. */
  datatype RetrySummary = RetrySummary(policy: Option<Policy>, reconnects: nat, callbacks: nat)

  function RetryRun(policy: Option<Policy>, closed: bool, k: nat): RetrySummary
    decreases k
  {
    if k == 0 then RetrySummary(policy, 0, 0)
    else
      var step := RetryStep(policy, closed);
      var rest := RetryRun(step.policy, closed, k - 1);
      RetrySummary(rest.policy,
                   rest.reconnects + (if step.action == ReconnectCalled && !closed then 1 else 0),
                   rest.callbacks + (if step.action == CallbackCalled then 1 else 0))
  }

  /**
   * One automatic reconnect replaces the caller's policy: the budget becomes
   * 999 (1000 when there was no policy) and the callback is gone.
   */
  lemma ReconnectReplacesPolicy(policy: Option<Policy>)
    requires policy.None? || policy.value.maxRetry > 0
    ensures RetryStep(policy, false).action == ReconnectCalled
    ensures RetryStep(policy, false).policy
         == Some(Policy(if policy.None? then DEFAULT_MAX_RETRY else DEFAULT_MAX_RETRY - 1, false))
  {
  }

  /**
   * While the client is open and starts with budget left (or no policy),
   * every drop reconnects and the callback is never called, however many
   * drops there are: the budget never runs out.
   */
  lemma {:induction false} OpenClientNeverExhausts(policy: Option<Policy>, k: nat)
    requires policy.None? || policy.value.maxRetry > 0
    ensures RetryRun(policy, false, k).reconnects == k
    ensures RetryRun(policy, false, k).callbacks == 0
    ensures k > 0 ==> RetryRun(policy, false, k).policy.Some?
                      && RetryRun(policy, false, k).policy.value.maxRetry >= DEFAULT_MAX_RETRY - 1
                      && !RetryRun(policy, false, k).policy.value.hasCallback
    decreases k
  {
    if k > 0 {
      var step := RetryStep(policy, false);
      ReconnectReplacesPolicy(policy);
      OpenClientNeverExhausts(step.policy, k - 1);
    }
  }

  /**
   * After `close()` the timers already scheduled still run: they count the
   * caller's budget down without reconnecting and then call the callback
   * once per further firing.
   */
  lemma {:induction false} ClosedClientRunsDown(n: nat, hasCallback: bool, m: nat)
    ensures RetryRun(Some(Policy(n, hasCallback)), true, n + m)
         == RetrySummary(Some(Policy(0, hasCallback)), 0, if hasCallback then m else 0)
  {
    if n > 0 {
      assert RetryStep(Some(Policy(n, hasCallback)), true).policy == Some(Policy(n - 1, hasCallback));
      ClosedClientRunsDown(n - 1, hasCallback, m);
    } else if m > 0 {
      ClosedClientRunsDown(0, hasCallback, m - 1);
    }
  }

  /**
   * The keep-alive due time after the requests settle in the given order,
   * starting from `due`: each request that resolves re-arms it at its
   * settling time plus KEEP_ALIVE_DELAY, so the last resolved one decides;
   * rejected requests leave it alone, and a closed client keeps `due`.
   */
  function Rearmed(due: Option<int>, closed: bool, ok: seq<bool>, at: seq<int>, order: seq<nat>): Option<int>
    requires |at| == |ok| && Below(order, |ok|)
  {
    if closed || order == [] then due
    else
      var i := order[|order| - 1];
      if ok[i] then Some(at[i] + KEEP_ALIVE_DELAY)
      else Rearmed(due, closed, ok, at, order[..|order| - 1])
  }

  // ---------------------------------------------------------------------
  // The client object
  // ---------------------------------------------------------------------

  class Client {
    /** Clock reading of the last request sent; 0 until a request is sent. */
    var timeLastCall: int
    /** When the one pending keep-alive timer fires, if one is pending. */
    var keepAliveDue: Option<int>
    /** `persistencePolicy`: None for `null` or never set. */
    var policy: Option<Policy>
    var electrumConfig: Value
    /** Set by `close()`: reconnect, onClose and keepAlive have become no-ops. */
    var closed: bool
    /** Listener counts of the parent's subscription emitter, per event. */
    var listeners: map<string, nat>
    /** Retry callbacks scheduled by onClose and not yet run. */
    var retryTimers: nat
    var callbackCalls: nat
    /** `initSocket()` calls and `connect()` calls made so far. */
    var socketInits: nat
    var connectAttempts: nat
    /** Every request handed to the parent, in order. */
    var calls: seq<Call>

    ghost predicate Valid()
      reads this
    {
      closed ==> keepAliveDue.None?
    }

    constructor(listeners0: map<string, nat>)
      ensures Valid()
      ensures timeLastCall == 0 && keepAliveDue.None? && policy.None? && !closed
      ensures listeners == listeners0 && retryTimers == 0 && callbackCalls == 0
      ensures socketInits == 0 && connectAttempts == 0 && calls == []
    {
      timeLastCall := 0;
      keepAliveDue := None;
      policy := None;
      electrumConfig := Undefined;
      closed := false;
      listeners := listeners0;
      retryTimers := 0;
      callbackCalls := 0;
      socketInits := 0;
      connectAttempts := 0;
      calls := [];
    }

    /** `initElectrum(config, policy)`: installs the policy and config, clears the stamp, connects. */
    method InitElectrum(config: Value, arg: PolicyArg)
      requires Valid()
      modifies this`policy, this`electrumConfig, this`timeLastCall, this`connectAttempts
      ensures Valid()
      ensures policy == EffectivePolicy(arg) && electrumConfig == config && timeLastCall == 0
      ensures connectAttempts == old(connectAttempts) + 1
    {
      policy := EffectivePolicy(arg);
      electrumConfig := config;
      timeLastCall := 0;
      connectAttempts := connectAttempts + 1;
    }

    /** Sending half of the overriding `request`: stamp the clock, hand the call over. */
    method BeginRequest(call: Call, now: int)
      modifies this`timeLastCall, this`calls
      ensures timeLastCall == now && calls == old(calls) + [call]
    {
      timeLastCall := now;
      calls := calls + [call];
    }

    /** Settling half of the overriding `request`: a resolved request re-arms the keep-alive. */
    method CompleteRequest(at: int, reply: Reply)
      requires Valid()
      modifies this`keepAliveDue
      ensures Valid()
      ensures keepAliveDue == if reply.Settled? && !closed then Some(at + KEEP_ALIVE_DELAY) else old(keepAliveDue)
    {
      if reply.Settled? {
        KeepAlive(at);
      }
    }

    /** The overriding `request`, sent at `now` and settling at `at` with `reply`. */
    method Request(rpc: string, params: seq<Value>, now: int, at: int, reply: Reply) returns (r: Reply)
      requires Valid()
      modifies this`timeLastCall, this`calls, this`keepAliveDue
      ensures Valid()
      ensures r == reply
      ensures timeLastCall == now && calls == old(calls) + [Call(rpc, params)]
      ensures keepAliveDue == if reply.Settled? && !closed then Some(at + KEEP_ALIVE_DELAY) else old(keepAliveDue)
    {
      BeginRequest(Call(rpc, params), now);
      CompleteRequest(at, reply);
      r := reply;
    }

    /** `server_version`, the handshake `initElectrum` sends once connected; the other one-line wrappers are alike. */
    method ServerVersion(clientName: Value, protocolVersion: Value, now: int, at: int, reply: Reply) returns (r: Reply)
      requires Valid()
      modifies this`timeLastCall, this`calls, this`keepAliveDue
      ensures Valid()
      ensures r == reply
      ensures timeLastCall == now && calls == old(calls) + [Call(SERVER_VERSION, [clientName, protocolVersion])]
      ensures keepAliveDue == if reply.Settled? && !closed then Some(at + KEEP_ALIVE_DELAY) else old(keepAliveDue)
    {
      r := Request(SERVER_VERSION, [clientName, protocolVersion], now, at, reply);
    }

    /**
     * The later `requestBatch` definition, which replaces the first one: it
     * neither stamps the clock nor re-arms the keep-alive (it modifies nothing).
     */
    method RequestBatch(reply: Reply) returns (r: Reply)
      ensures r == reply
    {
      r := reply;
    }

    /** `keepAlive()`: replace any pending keep-alive timer by one due KEEP_ALIVE_DELAY from now. */
    method KeepAlive(now: int)
      requires Valid()
      modifies this`keepAliveDue
      ensures Valid()
      ensures keepAliveDue == if closed then old(keepAliveDue) else Some(now + KEEP_ALIVE_DELAY)
    {
      if !closed {
        keepAliveDue := Some(now + KEEP_ALIVE_DELAY);
      }
    }

    /**
     * The keep-alive timer fires at its due time. If the connection is idle
     * it pings through `request`, which stamps the clock; the ping settles
     * later through CompleteRequest.
     */
    method KeepAliveFires(now: int) returns (pinged: bool)
      requires Valid()
      requires keepAliveDue == Some(now)
      modifies this`keepAliveDue, this`timeLastCall, this`calls
      ensures Valid()
      ensures keepAliveDue.None?
      ensures pinged == ShouldPing(old(timeLastCall), now)
      ensures pinged ==> timeLastCall == now && calls == old(calls) + [Call(SERVER_PING, [])]
      ensures !pinged ==> timeLastCall == old(timeLastCall) && calls == old(calls)
    {
      keepAliveDue := None;
      pinged := ShouldPing(timeLastCall, now);
      if pinged {
        BeginRequest(Call(SERVER_PING, []), now);
      }
    }

    /**
     * A request sent at `now` settles at `at`, and nothing else is sent
     * before the keep-alive it armed fires. The clock was stamped when the
     * request was sent, so that timer pings exactly when the request took
     * any time to settle.
     */
    method RequestThenIdle(rpc: string, params: seq<Value>, now: int, at: int, reply: Reply)
      returns (r: Reply, pinged: bool)
      requires Valid() && !closed && reply.Settled?
      requires now != 0 && now <= at
      modifies this`timeLastCall, this`calls, this`keepAliveDue
      ensures Valid()
      ensures r == reply
      ensures pinged <==> at > now
      ensures keepAliveDue.None?
      ensures calls == old(calls) + [Call(rpc, params)] + (if at > now then [Call(SERVER_PING, [])] else [])
    {
      r := Request(rpc, params, now, at, reply);
      pinged := KeepAliveFires(at + KEEP_ALIVE_DELAY);
    }

    /** `onClose()`: drop the subscription listeners and schedule the retry decision. */
    method OnClose()
      modifies this`listeners, this`retryTimers
      ensures old(closed) ==> listeners == old(listeners) && retryTimers == old(retryTimers)
      ensures !old(closed) ==> listeners == old(listeners) - {HEADERS_SUBSCRIBE, SCRIPTHASH_SUBSCRIBE}
                               && retryTimers == old(retryTimers) + 1
    {
      if !closed {
        listeners := listeners - {HEADERS_SUBSCRIBE, SCRIPTHASH_SUBSCRIBE};
        retryTimers := retryTimers + 1;
      }
    }

    /** `reconnect()`: a fresh socket and `initElectrum` with the stored config and the default policy. */
    method Reconnect()
      requires Valid()
      modifies this`policy, this`electrumConfig, this`timeLastCall, this`connectAttempts, this`socketInits
      ensures Valid()
      ensures electrumConfig == old(electrumConfig)
      ensures closed ==> policy == old(policy) && timeLastCall == old(timeLastCall)
                         && connectAttempts == old(connectAttempts) && socketInits == old(socketInits)
      ensures !closed ==> policy == Some(DEFAULT_POLICY) && timeLastCall == 0
                          && connectAttempts == old(connectAttempts) + 1 && socketInits == old(socketInits) + 1
    {
      if !closed {
        socketInits := socketInits + 1;
        InitElectrum(electrumConfig, Omitted);
      }
    }

    /** The delayed callback of `onClose`, one second after the drop. */
    method RetryTimerFires() returns (action: RetryAction)
      requires Valid()
      requires retryTimers > 0
      modifies this
      ensures Valid()
      ensures retryTimers == old(retryTimers) - 1
      ensures RetryResult(policy, action) == RetryStep(old(policy), closed)
      ensures callbackCalls == old(callbackCalls) + (if action == CallbackCalled then 1 else 0)
      ensures connectAttempts == old(connectAttempts) + (if action == ReconnectCalled && !closed then 1 else 0)
      ensures action == ReconnectCalled && !closed ==> timeLastCall == 0
      ensures !(action == ReconnectCalled && !closed) ==> timeLastCall == old(timeLastCall)
      ensures closed == old(closed) && keepAliveDue == old(keepAliveDue) && listeners == old(listeners)
      ensures calls == old(calls) && electrumConfig == old(electrumConfig)
    {
      retryTimers := retryTimers - 1;
      if policy.Some? && policy.value.maxRetry > 0 {
        Reconnect();
        policy := Some(policy.value.(maxRetry := policy.value.maxRetry - 1));
        action := ReconnectCalled;
      } else if policy.Some? && policy.value.hasCallback {
        callbackCalls := callbackCalls + 1;
        action := CallbackCalled;
      } else if policy.None? {
        Reconnect();
        action := ReconnectCalled;
      } else {
        action := Idle;
      }
    }

    /** `close()`: cancel the keep-alive timer and turn reconnect, onClose and keepAlive into no-ops. */
    method Close()
      requires Valid()
      modifies this`keepAliveDue, this`closed
      ensures Valid()
      ensures closed && keepAliveDue.None?
    {
      keepAliveDue := None;
      closed := true;
    }

    /** Send one request per call, all at the same instant. */
    method Dispatch(cs: seq<Call>, now: int)
      modifies this`timeLastCall, this`calls
      ensures calls == old(calls) + cs
      ensures timeLastCall == if cs == [] then old(timeLastCall) else now
    {
      for k := 0 to |cs|
        invariant calls == old(calls) + cs[..k]
        invariant timeLastCall == if k == 0 then old(timeLastCall) else now
      {
        BeginRequest(cs[k], now);
        assert cs[..k + 1] == cs[..k] + [cs[k]];
      }
      assert cs[..|cs|] == cs;
    }

    /** Run the settle callbacks in completion order: each resolved request re-arms the keep-alive. */
    method SettleAll(ok: seq<bool>, at: seq<int>, order: seq<nat>)
      requires Valid()
      requires |at| == |ok| && Below(order, |ok|)
      modifies this`keepAliveDue
      ensures Valid()
      ensures keepAliveDue == Rearmed(old(keepAliveDue), closed, ok, at, order)
    {
      for k := 0 to |order|
        invariant Valid()
        invariant Below(order[..k], |ok|)
        invariant keepAliveDue == Rearmed(old(keepAliveDue), closed, ok, at, order[..k])
      {
        assert order[..k + 1][..k] == order[..k];
        if ok[order[k]] {
          CompleteRequest(at[order[k]], Settled(Null));
        }
      }
      assert order[..|order|] == order;
    }

    /** `blockchainScripthashes_getBalance(descs)`. */
    method ScripthashesGetBalance(descs: seq<Value>, replies: seq<Reply>, order: seq<nat>,
                                  now: int, settledAt: seq<int>)
      returns (out: BatchResult<BalanceRow>)
      requires Valid()
      requires |replies| == |descs| && |settledAt| == |descs|
      requires IsCompletionOrder(order, |descs|)
      modifies this`timeLastCall, this`calls, this`keepAliveDue
      ensures Valid()
      ensures out == BalanceBatch(descs, replies, order)
      ensures calls == old(calls) + ScripthashCalls(GET_BALANCE, descs, true)
      ensures timeLastCall == if ScripthashCalls(GET_BALANCE, descs, true) == [] then old(timeLastCall) else now
      ensures keepAliveDue == Rearmed(old(keepAliveDue), closed, Succeeded(descs, replies, true), settledAt, order)
    {
      Dispatch(ScripthashCalls(GET_BALANCE, descs, true), now);
      SettleAll(Succeeded(descs, replies, true), settledAt, order);
      out := CollectBalances(descs, replies, order);
    }

    /** `blockchainScripthashes_getHistory` (GET_HISTORY) and `_getMempool` (GET_MEMPOOL). */
    method ScripthashesGetHistory(rpc: string, descs: seq<Value>, replies: seq<Reply>, order: seq<nat>,
                                  now: int, settledAt: seq<int>)
      returns (out: BatchResult<HistoryRow>)
      requires Valid()
      requires rpc == GET_HISTORY || rpc == GET_MEMPOOL
      requires |replies| == |descs| && |settledAt| == |descs|
      requires IsCompletionOrder(order, |descs|)
      modifies this`timeLastCall, this`calls, this`keepAliveDue
      ensures Valid()
      ensures out == EntryBatch(descs, replies, order, true, HistoryRowOf)
      ensures calls == old(calls) + ScripthashCalls(rpc, descs, true)
      ensures timeLastCall == if ScripthashCalls(rpc, descs, true) == [] then old(timeLastCall) else now
      ensures keepAliveDue == Rearmed(old(keepAliveDue), closed, Succeeded(descs, replies, true), settledAt, order)
    {
      Dispatch(ScripthashCalls(rpc, descs, true), now);
      SettleAll(Succeeded(descs, replies, true), settledAt, order);
      out := CollectEntryRows(descs, replies, order, true, HistoryRowOf);
    }

    /** `blockchainScripthashes_listunspent(descs)`. */
    method ScripthashesListunspent(descs: seq<Value>, replies: seq<Reply>, order: seq<nat>,
                                   now: int, settledAt: seq<int>)
      returns (out: BatchResult<UtxoRow>)
      requires Valid()
      requires |replies| == |descs| && |settledAt| == |descs|
      requires IsCompletionOrder(order, |descs|)
      modifies this`timeLastCall, this`calls, this`keepAliveDue
      ensures Valid()
      ensures out == EntryBatch(descs, replies, order, false, UtxoRowOf) && out.Rows?
      ensures calls == old(calls) + ScripthashCalls(LISTUNSPENT, descs, false)
      ensures timeLastCall == if ScripthashCalls(LISTUNSPENT, descs, false) == [] then old(timeLastCall) else now
      ensures keepAliveDue == Rearmed(old(keepAliveDue), closed, Succeeded(descs, replies, false), settledAt, order)
    {
      Dispatch(ScripthashCalls(LISTUNSPENT, descs, false), now);
      SettleAll(Succeeded(descs, replies, false), settledAt, order);
      out := CollectEntryRows(descs, replies, order, false, UtxoRowOf);
    }

    /** `blockchainTransactions_get(txs, verbose)`. */
    method TransactionsGet(txs: seq<Value>, verbose: bool, replies: seq<Reply>, order: seq<nat>,
                           now: int, settledAt: seq<int>)
      returns (result: seq<Object>)
      requires Valid()
      requires |replies| == |txs| && |settledAt| == |txs|
      requires IsCompletionOrder(order, |txs|)
      modifies this`timeLastCall, this`calls, this`keepAliveDue
      ensures Valid()
      ensures result == TxBatch(txs, replies, order)
      ensures calls == old(calls) + TxCalls(txs, verbose)
      ensures timeLastCall == if TxCalls(txs, verbose) == [] then old(timeLastCall) else now
      ensures keepAliveDue == Rearmed(old(keepAliveDue), closed, TxSettled(txs, replies), settledAt, order)
    {
      Dispatch(TxCalls(txs, verbose), now);
      SettleAll(TxSettled(txs, replies), settledAt, order);
      result := CollectTransactions(txs, replies, order);
    }
  }

  function TxSettled(txs: seq<Value>, replies: seq<Reply>): (ok: seq<bool>)
    requires |replies| == |txs|
    ensures |ok| == |txs|
  {
    seq(|txs|, i requires 0 <= i < |txs| => !Nullish(txs[i]) && replies[i].Settled?)
  }
}

=== FILE: js.dfy ===
/**
 * The JavaScript values the wallet code passes around, reduced to what its
 * logic inspects: truthiness, property lookup and object spread.
 */
module Js {

  datatype Option<+T> = None | Some(value: T)

  /** A JavaScript value. Functions and symbols never reach the modelled code. */
  datatype Value =
    | Undefined
    | Null
    | Bool(b: bool)
    | Num(n: real)
    | Str(s: string)
    | Arr(items: seq<Value>)
    | Obj(fields: Object)

  /** A plain object: its own enumerable properties, keyed by property name. */
  type Object = map<string, Value>

  /** JavaScript truthiness (NaN and -0 are not modelled: numbers are reals). */
  predicate Truthy(v: Value)
  {
    match v
    case Undefined => false
    case Null => false
    case Bool(b) => b
    case Num(n) => n != 0.0
    case Str(s) => s != ""
    case Arr(_) => true
    case Obj(_) => true
  }

  /** `null` and `undefined`: the values whose destructuring throws. */
  predicate Nullish(v: Value)
  {
    v.Undefined? || v.Null?
  }

  /** `o[k]`, with `undefined` for a missing property. */
  function Get(o: Object, k: string): Value
  {
    if k in o then o[k] else Undefined
  }

  /** `v?.k`: a property of an object, `undefined` for anything else. */
  function FieldOf(v: Value, k: string): (r: Value)
    ensures r != Undefined ==> v.Obj? && k in v.fields && r == v.fields[k]
  {
    if v.Obj? then Get(v.fields, k) else Undefined
  }

  /**
   * `xs.includes(x)`: a scan from the front, comparing by value. JavaScript
   * compares objects and arrays by identity instead; the callers here only
   * search for strings, where the two agree.
   */
  function Includes(xs: seq<Value>, x: Value): (r: bool)
    ensures r <==> x in xs
  {
    if xs == [] then false else xs[0] == x || Includes(xs[1..], x)
  }

  /**
   * `xs.indexOf(x)`: the first position holding `x`, or -1. As with
   * `Includes`, objects and arrays are compared by value rather than by
   * identity; the callers only search for strings.
   */
  function IndexOf(xs: seq<Value>, x: Value): (r: int)
    ensures -1 <= r < |xs|
    ensures r == -1 <==> x !in xs
    ensures r >= 0 ==> xs[r] == x && x !in xs[..r]
  {
    if xs == [] then -1
    else if xs[0] == x then 0
    else
      var i := IndexOf(xs[1..], x);
      if i == -1 then -1 else i + 1
  }

  /**
   * The properties `{...v}` copies: those of an object, none for `null`,
   * `undefined`, a number or a boolean. A string or an array, whose index
   * properties JavaScript would copy, is treated as having none.
   */
  function Spread(v: Value): Object
  {
    if v.Obj? then v.fields else map[]
  }
}

=== FILE: rates.dfy ===
/**
 * The exchange-rates reducer (src/reducers/rates.js): one record per ticker,
 * into which each `EXCHANGE_RATES_UPDATED` payload is merged.
 */
module Rates {
  import opened Js

  /** The action types the reducer tells apart; the other types carry their own name. */
  datatype ActionType = ExchangeRatesUpdated | OtherAction(name: string)

  datatype Action = Action(kind: ActionType, payload: Object)

  /** Rate records keyed by ticker. */
  type RatesState = map<Value, Object>

  /** The state the reducer starts from when Redux passes `undefined`. */
  const INITIAL_STATE: RatesState := map[]

  /** `state[ticker]` spread: a ticker with no record spreads as `{}`. */
  function Entry(state: RatesState, ticker: Value): Object
  {
    if ticker in state then state[ticker] else map[]
  }

  /** The ticker an update is filed under: `action.payload.ticker`. */
  function TickerOf(payload: Object): Value
  {
    Get(payload, "ticker")
  }

  function Reduce(state: RatesState, action: Action): RatesState
  {
    match action.kind
    case ExchangeRatesUpdated =>
      var t := TickerOf(action.payload);
      state[t := Entry(state, t) + action.payload]
    case OtherAction(_) => state
  }

  /**
   * An update leaves the ticker's record as the old record overridden by the
   * payload: payload fields win, the others are kept, and nothing else is in it.
   */
  lemma UpdateMergesPayload(state: RatesState, payload: Object)
    ensures TickerOf(payload) in Reduce(state, Action(ExchangeRatesUpdated, payload))
    ensures var e := Reduce(state, Action(ExchangeRatesUpdated, payload))[TickerOf(payload)];
      e.Keys == Entry(state, TickerOf(payload)).Keys + payload.Keys
      && (forall k :: k in payload ==> e[k] == payload[k])
      && (forall k :: k in Entry(state, TickerOf(payload)) && k !in payload ==> e[k] == Entry(state, TickerOf(payload))[k])
  {
  }

  /** An update touches no other ticker's record and adds no other ticker. */
  lemma UpdateKeepsOtherTickers(state: RatesState, payload: Object, other: Value)
    requires other != TickerOf(payload)
    ensures other in Reduce(state, Action(ExchangeRatesUpdated, payload)) <==> other in state
    ensures other in state ==> Reduce(state, Action(ExchangeRatesUpdated, payload))[other] == state[other]
  {
  }

  /** Any other action type returns the state it was given. */
  lemma OtherActionsKeepState(state: RatesState, name: string, payload: Object)
    ensures Reduce(state, Action(OtherAction(name), payload)) == state
  {
  }

  /** Applying the same update twice gives the state of applying it once. */
  lemma UpdateIsIdempotent(state: RatesState, action: Action)
    ensures Reduce(Reduce(state, action), action) == Reduce(state, action)
  {
    if action.kind.ExchangeRatesUpdated? {
      var t := TickerOf(action.payload);
      var once := Reduce(state, action);
      assert Entry(once, t) + action.payload == Entry(state, t) + action.payload;
    }
  }

  /**
   * The first update of a ticker files the payload itself; from the initial
   * state, that record is the whole state.
   */
  lemma FirstUpdateIsPayload(state: RatesState, payload: Object)
    requires TickerOf(payload) !in state
    ensures Reduce(state, Action(ExchangeRatesUpdated, payload))[TickerOf(payload)] == payload
    ensures Reduce(INITIAL_STATE, Action(ExchangeRatesUpdated, payload)) == map[TickerOf(payload) := payload]
  {
    assert map[] + payload == payload;
  }

  /** Updates of two different tickers can arrive in either order. */
  lemma UpdatesOfDistinctTickersCommute(state: RatesState, p: Object, q: Object)
    requires TickerOf(p) != TickerOf(q)
    ensures Reduce(Reduce(state, Action(ExchangeRatesUpdated, p)), Action(ExchangeRatesUpdated, q))
         == Reduce(Reduce(state, Action(ExchangeRatesUpdated, q)), Action(ExchangeRatesUpdated, p))
  {
  }

  /** Two updates of one ticker amount to one update with the later payload winning field by field. */
  lemma LaterUpdateWins(state: RatesState, p: Object, q: Object)
    requires TickerOf(p) == TickerOf(q)
    ensures Reduce(Reduce(state, Action(ExchangeRatesUpdated, p)), Action(ExchangeRatesUpdated, q))
         == Reduce(state, Action(ExchangeRatesUpdated, p + q))
  {
    var t := TickerOf(p);
    assert TickerOf(p + q) == t;
    assert Entry(state, t) + p + q == Entry(state, t) + (p + q);
  }
}

=== FILE: settings.dfy ===
/**
 * The settings screen (src/components/Settings.js): the panel flags and
 * their toggles, the back button, and the updates it sends to the wallet
 * store — address type and derivation path, per-coin field writes, the
 * per-coin rescan reset and the reset for a new BIP39 passphrase — plus the
 * backup phrase word list and the wallet name shown in the header.
 *
 * The Redux store is outside the component: what the screen hands to
 * `props.updateWallet` and `props.updateSettings` is recorded in order, and
 * the wallet tree it reads (`props.wallet`) is passed in.
 */
module Settings {
  import opened Js
  import opened Strings

  // ---------------------------------------------------------------------
  // Address type
  // ---------------------------------------------------------------------

  /** `updateAddressType`'s default argument: an omitted address type is "bech32". */
  function AddressTypeArg(addressType: Value): Value
  {
    if addressType == Undefined then Str("bech32") else addressType
  }

  /** The derivation path stored with an address type. */
  function DerivationPath(addressType: Value): (path: string)
    ensures path == "49" <==> addressType == Str("segwit")
    ensures path == "44" <==> addressType == Str("legacy")
    ensures path == "84" <==> addressType != Str("segwit") && addressType != Str("legacy")
  {
    if addressType == Str("bech32") then "84"
    else if addressType == Str("segwit") then "49"
    else if addressType == Str("legacy") then "44"
    else "84"
  }

  /** `wallets[w][field][coin]` as any later read sees it: `undefined` wherever a level is missing. */
  function Lookup(wallets: Object, w: string, field: string, coin: string): Value
  {
    FieldOf(FieldOf(Get(wallets, w), field), coin)
  }

  // ---------------------------------------------------------------------
  // updateWallet
  // ---------------------------------------------------------------------

  /** An entry `{ key, value }` that `updateWallet` writes: a non-empty string key and a truthy value. */
  predicate Writes(entry: Value)
  {
    FieldOf(entry, "key").Str? && FieldOf(entry, "key").s != "" && Truthy(FieldOf(entry, "value"))
  }

  predicate WritesKey(entry: Value, key: string)
  {
    Writes(entry) && FieldOf(entry, "key").s == key
  }

  /** `data`'s default: one entry with an empty key and value, which writes nothing. */
  const DEFAULT_DATA: seq<Value> := [Obj(map["key" := Str(""), "value" := Str("")])]

  /**
   * The entries `data.map` visits. A falsy `data` returns early and any
   * other non-array throws: both give None.
   */
  function Entries(data: Value): Option<seq<Value>>
  {
    match data
    case Undefined => Some(DEFAULT_DATA)
    case Arr(items) => Some(items)
    case _ => None
  }

  /** The value of the last entry that writes `key`, if any. */
  function LastWrite(entries: seq<Value>, key: string): Option<Value>
  {
    if entries == [] then None
    else if WritesKey(entries[|entries| - 1], key) then Some(FieldOf(entries[|entries| - 1], "value"))
    else LastWrite(entries[..|entries| - 1], key)
  }

  /**
   * `newData` after the entries: each written key holds the wallet's record
   * for that key with the coin's value replaced.
   */
  function NewData(wallet: Value, coin: string, entries: seq<Value>): Object
  {
    if entries == [] then map[]
    else
      var e := entries[|entries| - 1];
      var prev := NewData(wallet, coin, entries[..|entries| - 1]);
      if Writes(e) then
        var key := FieldOf(e, "key").s;
        prev[key := Obj(Spread(FieldOf(wallet, key))[coin := FieldOf(e, "value")])]
      else prev
  }

  /** The tree handed to `props.updateWallet`: the selected wallet with `newData` spread over it. */
  function UpdatedWallets(wallets: Object, selected: string, newData: Object): Object
  {
    wallets[selected := Obj(Spread(Get(wallets, selected)) + newData)]
  }

  /**
   * Whether `updateWallet` reaches the dispatch: the entries can be read, none
   * is `null` (its destructuring throws), and the wallet can be indexed if
   * some entry writes.
   */
  predicate UpdateWalletDispatches(wallets: Object, selected: string, data: Value)
  {
    Entries(data).Some?
    && Null !in Entries(data).value
    && (Nullish(Get(wallets, selected)) ==>
          forall i :: 0 <= i < |Entries(data).value| ==> !Writes(Entries(data).value[i]))
  }

  /**
   * The `data.map` pass of `updateWallet`: fill `newData`, or fail as the
   * callback throws on a `null` entry or on a wallet that is not there.
   */
  method CollectNewData(wallet: Value, coin: string, entries: seq<Value>) returns (newData: Option<Object>)
    ensures newData.Some? <==>
      Null !in entries && (Nullish(wallet) ==> forall i :: 0 <= i < |entries| ==> !Writes(entries[i]))
    ensures newData.Some? ==> newData.value == NewData(wallet, coin, entries)
  {
    var acc: Object := map[];
    for i := 0 to |entries|
      invariant Null !in entries[..i]
      invariant Nullish(wallet) ==> forall j :: 0 <= j < i ==> !Writes(entries[j])
      invariant acc == NewData(wallet, coin, entries[..i])
    {
      var e := entries[i];
      assert entries[..i + 1][..i] == entries[..i];
      if e == Null {
        assert e in entries;
        return None;
      }
      if Writes(e) {
        if Nullish(wallet) {
          return None;
        }
        var key := FieldOf(e, "key").s;
        acc := acc[key := Obj(Spread(FieldOf(wallet, key))[coin := FieldOf(e, "value")])];
      }
    }
    assert entries[..|entries|] == entries;
    return Some(acc);
  }

  /** `LastWrite` finds the last entry writing the key: a later entry for the same key overrides an earlier one. */
  /** Entry `i` writes `key` and no later entry does. */
  predicate LastWriter(entries: seq<Value>, key: string, i: int)
  {
    0 <= i < |entries| && WritesKey(entries[i], key)
    && forall j :: i < j < |entries| ==> !WritesKey(entries[j], key)
  }

  /** An entry that does not write `key` leaves the last writer among the earlier entries. */
  lemma LastWriterSkip(entries: seq<Value>, key: string, i: int)
    requires entries != [] && !WritesKey(entries[|entries| - 1], key)
    ensures LastWriter(entries, key, i) <==> LastWriter(entries[..|entries| - 1], key, i)
  {
    var init := entries[..|entries| - 1];
    if LastWriter(entries, key, i) {
      forall j | i < j < |init|
        ensures !WritesKey(init[j], key)
      {
        assert init[j] == entries[j];
      }
    }
    if LastWriter(init, key, i) {
      forall j | i < j < |entries|
        ensures !WritesKey(entries[j], key)
      {
        if j < |init| {
          assert entries[j] == init[j];
        }
      }
    }
  }

  lemma {:induction false} LastWriteIsLast(entries: seq<Value>, key: string, v: Value)
    ensures LastWrite(entries, key) == Some(v) <==>
      exists i :: LastWriter(entries, key, i) && FieldOf(entries[i], "value") == v
  {
    if entries != [] {
      var n := |entries| - 1;
      var init := entries[..n];
      if WritesKey(entries[n], key) {
        if LastWrite(entries, key) == Some(v) {
          assert LastWriter(entries, key, n);
        }
        if exists i :: LastWriter(entries, key, i) && FieldOf(entries[i], "value") == v {
          var i :| LastWriter(entries, key, i) && FieldOf(entries[i], "value") == v;
          assert i == n;
        }
      } else {
        LastWriteIsLast(init, key, v);
        if LastWrite(init, key) == Some(v) {
          var i :| LastWriter(init, key, i) && FieldOf(init[i], "value") == v;
          LastWriterSkip(entries, key, i);
        }
        if exists i :: LastWriter(entries, key, i) && FieldOf(entries[i], "value") == v {
          var i :| LastWriter(entries, key, i) && FieldOf(entries[i], "value") == v;
          LastWriterSkip(entries, key, i);
        }
      }
    }
  }

  /** `newData` holds exactly the written keys, each with the coin set to its last written value. */
  lemma {:induction false} NewDataLastWrite(wallet: Value, coin: string, entries: seq<Value>, key: string)
    ensures key in NewData(wallet, coin, entries) <==> LastWrite(entries, key).Some?
    ensures key in NewData(wallet, coin, entries) ==>
      NewData(wallet, coin, entries)[key] == Obj(Spread(FieldOf(wallet, key))[coin := LastWrite(entries, key).value])
  {
    if entries != [] {
      NewDataLastWrite(wallet, coin, entries[..|entries| - 1], key);
    }
  }

  /**
   * What `updateWallet` dispatches changes `wallets[selected][key][coin]`
   * for the written keys only, to the last value written for each; every
   * other coin of those keys, every other key and every other wallet reads
   * as before.
   */
  lemma UpdateWalletLookup(wallets: Object, selected: string, coin: string, entries: seq<Value>,
                           w: string, key: string, c: string)
    ensures var r := UpdatedWallets(wallets, selected, NewData(Get(wallets, selected), coin, entries));
      Lookup(r, w, key, c)
        == (if w == selected && c == coin && LastWrite(entries, key).Some? then LastWrite(entries, key).value
            else Lookup(wallets, w, key, c))
      && (w != selected || LastWrite(entries, key).None? ==> FieldOf(Get(r, w), key) == FieldOf(Get(wallets, w), key))
  {
    NewDataLastWrite(Get(wallets, selected), coin, entries, key);
  }

  // ---------------------------------------------------------------------
  // rescanWallet and _resetWalletForPassphrase
  // ---------------------------------------------------------------------

  /** The per-coin records `rescanWallet` resets. */
  const RESET_FIELDS: set<string> := {
    "addressIndex", "changeAddressIndex", "addresses", "changeAddresses",
    "transactions", "utxos", "confirmedBalance", "unconfirmedBalance"
  }

  /** Indices and balances go back to 0, lists to `[]`. */
  function ResetValue(field: string): Value
  {
    if field in {"addressIndex", "changeAddressIndex", "confirmedBalance", "unconfirmedBalance"} then Num(0.0)
    else Arr([])
  }

  /** The reset records of one wallet: each keeps its other coins and resets the selected one. */
  function ResetCoin(wallet: Value, coin: string): Object
  {
    map field | field in RESET_FIELDS :: Obj(Spread(FieldOf(wallet, field))[coin := ResetValue(field)])
  }

  /** The tree `rescanWallet` dispatches; None when the selected wallet is not there and reading it throws. */
  function Rescanned(wallets: Object, selected: string, coin: string): Option<Object>
  {
    var wallet := Get(wallets, selected);
    if Nullish(wallet) then None
    else Some(wallets[selected := Obj(Spread(wallet) + ResetCoin(wallet, coin))])
  }

  /**
   * A rescan resets the eight per-coin records of the selected coin in the
   * selected wallet; every other coin, key and wallet reads as before.
   */
  lemma RescanLookup(wallets: Object, selected: string, coin: string, w: string, field: string, c: string)
    requires Rescanned(wallets, selected, coin).Some?
    ensures var r := Rescanned(wallets, selected, coin).value;
      Lookup(r, w, field, c)
        == (if w == selected && field in RESET_FIELDS && c == coin then ResetValue(field)
            else Lookup(wallets, w, field, c))
      && (w != selected || field !in RESET_FIELDS ==> FieldOf(Get(r, w), field) == FieldOf(Get(wallets, w), field))
  {
  }

  /** A second rescan of the same coin dispatches the same tree. */
  lemma RescanIdempotent(wallets: Object, selected: string, coin: string)
    requires Rescanned(wallets, selected, coin).Some?
    ensures Rescanned(Rescanned(wallets, selected, coin).value, selected, coin) == Rescanned(wallets, selected, coin)
  {
    var wallet := Get(wallets, selected);
    var once := Rescanned(wallets, selected, coin).value;
    var wallet' := Get(once, selected);
    assert ResetCoin(wallet', coin) == ResetCoin(wallet, coin) by {
      forall field | field in RESET_FIELDS
        ensures ResetCoin(wallet', coin)[field] == ResetCoin(wallet, coin)[field]
      {
        assert FieldOf(wallet', field) == ResetCoin(wallet, coin)[field];
        assert Spread(FieldOf(wallet, field))[coin := ResetValue(field)][coin := ResetValue(field)]
            == Spread(FieldOf(wallet, field))[coin := ResetValue(field)];
      }
    }
    assert Spread(wallet') + ResetCoin(wallet', coin) == Spread(wallet) + ResetCoin(wallet, coin);
    assert once[selected := Obj(Spread(wallet') + ResetCoin(wallet', coin))] == once;
  }

  /** The wallet fields that survive a passphrase change. */
  const KEPT_FIELDS: set<string> := {
    "lastUpdated", "hasBackedUpWallet", "walletBackupTimestamp", "keyDerivationPath", "addressType"
  }

  /**
   * The tree `_resetWalletForPassphrase` dispatches: the default wallet shape
   * with the five kept fields copied (present even when undefined). None when
   * the selected wallet is not there and its destructuring throws.
   */
  function ResetForPassphrase(wallets: Object, selected: string, defaultShape: Object): Option<Object>
  {
    var wallet := Get(wallets, selected);
    if Nullish(wallet) then None
    else Some(wallets[selected := Obj(defaultShape + map field | field in KEPT_FIELDS :: FieldOf(wallet, field))])
  }

  /**
   * After the reset the selected wallet holds the default shape's fields and
   * the five kept ones, nothing else; the kept ones have their old values and
   * the rest the defaults. Other wallets are untouched, and resetting again
   * changes nothing.
   */
  lemma ResetKeepsExactlyFive(wallets: Object, selected: string, defaultShape: Object, w: string, field: string)
    requires ResetForPassphrase(wallets, selected, defaultShape).Some?
    ensures var r := ResetForPassphrase(wallets, selected, defaultShape).value;
      (w != selected ==> (w in r <==> w in wallets) && (w in wallets ==> r[w] == wallets[w]))
      && selected in r && r[selected].Obj?
      && r[selected].fields.Keys == defaultShape.Keys + KEPT_FIELDS
      && (field in KEPT_FIELDS ==> r[selected].fields[field] == FieldOf(Get(wallets, selected), field))
      && (field in defaultShape && field !in KEPT_FIELDS ==> r[selected].fields[field] == defaultShape[field])
    ensures ResetForPassphrase(ResetForPassphrase(wallets, selected, defaultShape).value, selected, defaultShape)
         == ResetForPassphrase(wallets, selected, defaultShape)
  {
    var wallet := Get(wallets, selected);
    var r := ResetForPassphrase(wallets, selected, defaultShape).value;
    var kept := map field | field in KEPT_FIELDS :: FieldOf(wallet, field);
    var kept' := map field | field in KEPT_FIELDS :: FieldOf(r[selected], field);
    assert kept' == kept;
    assert defaultShape + kept' == defaultShape + kept;
    assert r[selected := Obj(defaultShape + kept')] == r;
  }

  // ---------------------------------------------------------------------
  // Backup phrase and wallet name
  // ---------------------------------------------------------------------

  /** One word of the backup phrase as the list shows it, numbered from 1. */
  datatype PhraseWord = PhraseWord(id: nat, word: string)

  function Words(phrase: seq<PhraseWord>): seq<string>
  {
    seq(|phrase|, i requires 0 <= i < |phrase| => phrase[i].word)
  }

  /**
   * The header's wallet name: the name if it is a non-blank string, else the
   * label if it is, else "Wallet <position in walletOrder>"; None (nothing
   * shown) when `walletOrder` is not an array. Each lookup that throws falls
   * through to the next, so the outer catch's "?" is never returned.
   */
  function GetWalletName(wallet: Value, walletOrder: Value, selected: string): (r: Option<string>)
    ensures r.Some? <==>
      (FieldOf(wallet, "name").Str? && !IsBlank(FieldOf(wallet, "name").s))
      || (FieldOf(wallet, "label").Str? && !IsBlank(FieldOf(wallet, "label").s))
      || walletOrder.Arr?
    ensures r.Some? ==> !IsBlank(r.value)
    ensures FieldOf(wallet, "name").Str? && !IsBlank(FieldOf(wallet, "name").s) ==>
      r == Some(FieldOf(wallet, "name").s)
    ensures (!(FieldOf(wallet, "name").Str? && !IsBlank(FieldOf(wallet, "name").s))
             && FieldOf(wallet, "label").Str? && !IsBlank(FieldOf(wallet, "label").s)) ==>
      r == Some(FieldOf(wallet, "label").s)
  {
    var name := FieldOf(wallet, "name");
    var walletLabel := FieldOf(wallet, "label");
    TrimEmptyIffBlank(if name.Str? then name.s else "");
    TrimEmptyIffBlank(if walletLabel.Str? then walletLabel.s else "");
    if name.Str? && Trim(name.s) != "" then Some(name.s)
    else if walletLabel.Str? && Trim(walletLabel.s) != "" then Some(walletLabel.s)
    else if walletOrder.Arr? then
      var r := "Wallet " + IntToString(IndexOf(walletOrder.items, Str(selected)));
      assert !IsWhitespace(r[0]);
      Some(r)
    else None
  }

  /**
   * Without a usable name or label, the fallback numbers the wallet by its
   * first position in `walletOrder`, and by -1 when it is not listed.
   */
  lemma WalletNameFallback(wallet: Value, order: seq<Value>, selected: string)
    requires !(FieldOf(wallet, "name").Str? && !IsBlank(FieldOf(wallet, "name").s))
    requires !(FieldOf(wallet, "label").Str? && !IsBlank(FieldOf(wallet, "label").s))
    ensures Str(selected) in order ==>
      exists i :: (0 <= i < |order| && order[i] == Str(selected) && Str(selected) !in order[..i]
                   && GetWalletName(wallet, Arr(order), selected) == Some("Wallet " + IntToString(i)))
    ensures Str(selected) !in order ==> GetWalletName(wallet, Arr(order), selected) == Some("Wallet -1")
  {
    var name := FieldOf(wallet, "name");
    var walletLabel := FieldOf(wallet, "label");
    TrimEmptyIffBlank(if name.Str? then name.s else "");
    TrimEmptyIffBlank(if walletLabel.Str? then walletLabel.s else "");
    var i := IndexOf(order, Str(selected));
    assert GetWalletName(wallet, Arr(order), selected) == Some("Wallet " + IntToString(i));
    if Str(selected) !in order {
      assert NatToString(1) == "1";
      assert IntToString(-1) == "-1";
      assert "Wallet " + "-1" == "Wallet -1";
    } else {
      assert 0 <= i < |order| && order[i] == Str(selected) && Str(selected) !in order[..i];
    }
  }

  /** The name field's change handler: an input of 17 characters or more is ignored. */
  function NameAfterInput(current: string, typed: string): string
  {
    if |typed| < 17 then typed else current
  }

  function NameAfterInputs(current: string, inputs: seq<string>): string
  {
    if inputs == [] then current else NameAfterInput(NameAfterInputs(current, inputs[..|inputs| - 1]), inputs[|inputs| - 1])
  }

  /** `inputs[i]` is accepted and every later input is too long to be. */
  predicate LastAccepted(inputs: seq<string>, i: int)
  {
    0 <= i < |inputs| && |inputs[i]| < 17 && forall j :: i < j < |inputs| ==> |inputs[j]| >= 17
  }

  /** The position of the last input shorter than 17 characters, -1 when there is none. */
  function LastAcceptedIndex(inputs: seq<string>): (k: int)
    ensures -1 <= k < |inputs|
    ensures 0 <= k ==> |inputs[k]| < 17
  {
    if inputs == [] then -1
    else if |inputs[|inputs| - 1]| < 17 then |inputs| - 1
    else LastAcceptedIndex(inputs[..|inputs| - 1])
  }

  lemma {:induction false} NameIsLastAccepted(current: string, inputs: seq<string>)
    ensures NameAfterInputs(current, inputs)
         == if LastAcceptedIndex(inputs) < 0 then current else inputs[LastAcceptedIndex(inputs)]
  {
    if inputs != [] {
      var init := inputs[..|inputs| - 1];
      NameIsLastAccepted(current, init);
      if LastAcceptedIndex(init) >= 0 {
        assert init[LastAcceptedIndex(init)] == inputs[LastAcceptedIndex(init)];
      }
    }
  }

  lemma {:induction false} LastAcceptedIndexExact(inputs: seq<string>)
    ensures forall i :: LastAccepted(inputs, i) <==> 0 <= i && i == LastAcceptedIndex(inputs)
    ensures LastAcceptedIndex(inputs) < 0 <==> forall i :: 0 <= i < |inputs| ==> |inputs[i]| >= 17
  {
    if inputs != [] {
      var last := |inputs| - 1;
      var init := inputs[..last];
      LastAcceptedIndexExact(init);
      if |inputs[last]| >= 17 {
        forall i
          ensures LastAccepted(inputs, i) <==> LastAccepted(init, i)
        {
          if 0 <= i < last {
            assert forall j :: i < j < last ==> init[j] == inputs[j];
          }
        }
        assert forall i :: 0 <= i < last ==> init[i] == inputs[i];
      }
    }
  }

  /**
   * Typing never takes the name past 16 characters, and the name is the last
   * accepted input, or the start value when every input was too long.
   */
  lemma NameStaysShort(current: string, inputs: seq<string>)
    requires |current| <= 16
    ensures |NameAfterInputs(current, inputs)| <= 16
    ensures NameAfterInputs(current, inputs) == current
         || exists i :: LastAccepted(inputs, i) && NameAfterInputs(current, inputs) == inputs[i]
    ensures forall i :: LastAccepted(inputs, i) ==> NameAfterInputs(current, inputs) == inputs[i]
    ensures (forall i :: 0 <= i < |inputs| ==> |inputs[i]| >= 17) ==> NameAfterInputs(current, inputs) == current
  {
    NameIsLastAccepted(current, inputs);
    LastAcceptedIndexExact(inputs);
    var k := LastAcceptedIndex(inputs);
    if 0 <= k {
      assert LastAccepted(inputs, k);
    }
  }

  // ---------------------------------------------------------------------
  // Settings toggles
  // ---------------------------------------------------------------------

  /** The patch `toggleSetting(key)` sends: the setting's truthiness negated. */
  function TogglePatch(settings: Object, key: string): Object
  {
    map[key := Bool(!Truthy(Get(settings, key)))]
  }

  /**
   * A toggle flips the setting and leaves the others alone, so two toggles
   * restore its truthiness (assuming the settings reducer merges patches).
   */
  lemma ToggleTwice(settings: Object, key: string, other: string)
    requires other != key
    ensures var once := settings + TogglePatch(settings, key);
      Truthy(Get(once, key)) == !Truthy(Get(settings, key))
      && Get(once, other) == Get(settings, other)
      && Truthy(Get(once + TogglePatch(once, key), key)) == Truthy(Get(settings, key))
  {
  }

  // ---------------------------------------------------------------------
  // Panel flags
  // ---------------------------------------------------------------------

  const SETTINGS := "displaySettings"
  const PIN := "displayPin"
  const BACKUP := "displayBackupPhrase"
  const IMPORT := "displayImportPhrase"
  const SIGN := "displaySignMessage"
  const VERIFY := "displayVerifyMessage"
  const ELECTRUM := "displayElectrumOptions"
  const BROADCAST := "displayBroadcastTransaction"
  const FIAT := "displayFiatModal"

  /** The panels the back button closes, in the order it checks them. */
  const PANELS: seq<string> := [PIN, BACKUP, IMPORT, SIGN, VERIFY, ELECTRUM, BROADCAST]

  const INITIAL_FLAGS: map<string, bool> := map[
    SETTINGS := true, PIN := false, BACKUP := false, IMPORT := false, BROADCAST := false,
    SIGN := false, VERIFY := false, ELECTRUM := false,
    "displayGeneralHelp" := false, "displayWalletHelp" := false, FIAT := false
  ]

  predicate IsOpen(flags: map<string, bool>, id: string)
  {
    id in flags && flags[id]
  }

  /** An `updateItems` entry: the flag to set and its requested value. */
  datatype Item = Item(stateId: string, display: bool)

  /** An item already in the requested state is skipped. */
  predicate Skipped(flags: map<string, bool>, item: Item)
  {
    item.stateId in flags && flags[item.stateId] == item.display
  }

  /** `itemsToDisplay`: the flags set at once. */
  function Shown(flags: map<string, bool>, items: seq<Item>): map<string, bool>
  {
    if items == [] then map[]
    else
      var item := items[|items| - 1];
      var prev := Shown(flags, items[..|items| - 1]);
      if !Skipped(flags, item) && item.display then prev[item.stateId := true] else prev
  }

  /** `itemsToHide`: the flags cleared when the animations end. */
  function Hidden(flags: map<string, bool>, items: seq<Item>): map<string, bool>
  {
    if items == [] then map[]
    else
      var item := items[|items| - 1];
      var prev := Hidden(flags, items[..|items| - 1]);
      if !Skipped(flags, item) && !item.display then prev[item.stateId := false] else prev
  }

  /** The flags once `updateItems` has shown and, after the animations, hidden. */
  function ApplyItems(flags: map<string, bool>, items: seq<Item>): map<string, bool>
  {
    flags + Shown(flags, items) + Hidden(flags, items)
  }

  lemma {:induction false} ShownHiddenKeys(flags: map<string, bool>, items: seq<Item>, id: string)
    ensures id in Shown(flags, items) ==> exists i :: 0 <= i < |items| && items[i].stateId == id
    ensures id in Hidden(flags, items) ==> exists i :: 0 <= i < |items| && items[i].stateId == id
  {
    if items != [] {
      var init := items[..|items| - 1];
      ShownHiddenKeys(flags, init, id);
      if id in Shown(flags, init) {
        var i :| 0 <= i < |init| && init[i].stateId == id;
        assert items[i] == init[i];
      }
      if id in Hidden(flags, init) {
        var i :| 0 <= i < |init| && init[i].stateId == id;
        assert items[i] == init[i];
      }
    }
  }

  /** A flag no item names keeps its value. */
  lemma ApplyItemsUntouched(flags: map<string, bool>, items: seq<Item>, id: string)
    requires forall i :: 0 <= i < |items| ==> items[i].stateId != id
    ensures id in ApplyItems(flags, items) <==> id in flags
    ensures id in flags ==> ApplyItems(flags, items)[id] == flags[id]
  {
    ShownHiddenKeys(flags, items, id);
  }

  /** Every toggle asks for its panel's flag and the opposite for the settings list. */
  function TogglePair(id: string, display: bool): seq<Item>
  {
    [Item(id, display), Item(SETTINGS, !display)]
  }

  /** What one item contributes: nothing when skipped, otherwise its flag at the requested value. */
  function Change(flags: map<string, bool>, item: Item): map<string, bool>
  {
    if Skipped(flags, item) then map[] else map[item.stateId := item.display]
  }

  /** Applying a change decided against `flags` to a map that agrees with `flags` on that key sets the key. */
  lemma ChangeSets(base: map<string, bool>, flags: map<string, bool>, item: Item)
    requires item.stateId in base <==> item.stateId in flags
    requires item.stateId in flags ==> base[item.stateId] == flags[item.stateId]
    ensures base + Change(flags, item) == base[item.stateId := item.display]
  {
  }

  /** A toggle leaves its panel at `display`, the settings list at `!display`, and every other flag as it was. */
  lemma TogglePairEffect(flags: map<string, bool>, id: string, display: bool)
    requires id != SETTINGS
    ensures ApplyItems(flags, TogglePair(id, display)) == flags[id := display][SETTINGS := !display]
  {
    var items := TogglePair(id, display);
    var panel, back := items[0], items[1];
    assert items[..1] == [panel];
    assert items[..1][..0] == [];
    if display {
      assert Shown(flags, items[..1]) == Change(flags, panel);
      assert Hidden(flags, items[..1]) == map[];
      assert Shown(flags, items) == Change(flags, panel);
      assert Hidden(flags, items) == Change(flags, back);
      ChangeSets(flags, flags, panel);
      ChangeSets(flags[id := display], flags, back);
    } else {
      assert Shown(flags, items[..1]) == map[];
      assert Hidden(flags, items[..1]) == Change(flags, panel);
      assert Shown(flags, items) == Change(flags, back);
      assert Hidden(flags, items) == Change(flags, panel);
      ChangeSets(flags, flags, back);
      ChangeSets(flags[SETTINGS := !display], flags, panel);
      assert flags[SETTINGS := !display][id := display] == flags[id := display][SETTINGS := !display];
    }
  }

  /** The first open panel in the back button's order. */
  function FirstOpen(flags: map<string, bool>, panels: seq<string>): Option<string>
  {
    if panels == [] then None
    else if IsOpen(flags, panels[0]) then Some(panels[0])
    else FirstOpen(flags, panels[1..])
  }

  /** `FirstOpen` finds an open panel with every panel before it closed, and None only when all are closed. */
  lemma {:induction false} FirstOpenIsFirst(flags: map<string, bool>, panels: seq<string>)
    ensures FirstOpen(flags, panels).None? <==> forall i :: 0 <= i < |panels| ==> !IsOpen(flags, panels[i])
    ensures FirstOpen(flags, panels).Some? ==>
      exists i :: 0 <= i < |panels| && panels[i] == FirstOpen(flags, panels).value && IsOpen(flags, panels[i])
                  && forall j :: 0 <= j < i ==> !IsOpen(flags, panels[j])
  {
    if panels != [] && !IsOpen(flags, panels[0]) {
      var rest := panels[1..];
      FirstOpenIsFirst(flags, rest);
      assert forall j :: 1 <= j < |panels| ==> panels[j] == rest[j - 1];
      var r := FirstOpen(flags, rest);
      if r.Some? {
        var i :| 0 <= i < |rest| && rest[i] == r.value && IsOpen(flags, rest[i])
                 && forall j :: 0 <= j < i ==> !IsOpen(flags, rest[j]);
        assert panels[i + 1] == r.value;
      }
    }
  }

  /**
   * Back closes only the first open panel and shows the settings list: the
   * panels after it stay open, to be closed by later presses.
   */
  lemma BackClosesOnlyFirst(flags: map<string, bool>, id: string, other: string)
    requires FirstOpen(flags, PANELS) == Some(id)
    requires other != SETTINGS && other != id
    ensures var f := ApplyItems(flags, TogglePair(id, false));
      !IsOpen(f, id) && IsOpen(f, SETTINGS) && IsOpen(f, other) == IsOpen(flags, other)
  {
    FirstOpenIsFirst(flags, PANELS);
    TogglePairEffect(flags, id, false);
  }

  /** The settings update sent when the sign-message panel is closed. */
  const SIGN_MESSAGE_RESET: Object := map["signMessage" := Obj(map[
    "message" := Str(""), "signature" := Str(""), "selectedAddressIndex" := Num(0.0)])]

  /** The settings update sent when the verify-message panel is closed. */
  const VERIFY_MESSAGE_RESET: Object := map["verifyMessage" := Obj(map[
    "address" := Str(""), "message" := Str(""), "signature" := Str("")])]

  /** `wallets[addresses][coin].length > 0`, false where a level is missing. */
  predicate HasAddresses(wallet: Value, coin: string)
  {
    var a := FieldOf(FieldOf(wallet, "addresses"), coin);
    a.Arr? && |a.items| > 0
  }

  /** The tree dispatched when a backup phrase is shown: the wallet marked as backed up at `now`. */
  function BackedUp(wallets: Object, selected: string, now: Value): Object
  {
    wallets[selected := Obj(Spread(Get(wallets, selected))["hasBackedUpWallet" := Bool(true)]["walletBackupTimestamp" := now])]
  }

  /** The tree `updateAddressType` writes, if `updateWallet` dispatches one. */
  function AddressTypeData(addressType: Value): Value
  {
    Arr([Obj(map["key" := Str("addressType"), "value" := addressType]),
         Obj(map["key" := Str("keyDerivationPath"), "value" := Str(DerivationPath(addressType))])])
  }

  /**
   * `updateAddressType` sets the selected coin's derivation path to the one
   * the address type maps to, and its address type when that is truthy.
   */
  lemma AddressTypeWritesBoth(wallets: Object, selected: string, coin: string, addressType: Value,
                              w: string, key: string, c: string)
    ensures var entries := AddressTypeData(addressType).items;
      var r := UpdatedWallets(wallets, selected, NewData(Get(wallets, selected), coin, entries));
      Lookup(r, selected, "keyDerivationPath", coin) == Str(DerivationPath(addressType))
      && (Truthy(addressType) ==> Lookup(r, selected, "addressType", coin) == addressType)
      && (w != selected || c != coin || key !in {"addressType", "keyDerivationPath"}
          ==> Lookup(r, w, key, c) == Lookup(wallets, w, key, c))
  {
    var entries := AddressTypeData(addressType).items;
    assert entries[..1] == [entries[0]];
    assert entries[..1][..0] == [];
    assert WritesKey(entries[1], "keyDerivationPath");
    assert LastWrite(entries, "keyDerivationPath") == Some(Str(DerivationPath(addressType)));
    assert Truthy(addressType) ==> LastWrite(entries, "addressType") == Some(addressType);
    if key !in {"addressType", "keyDerivationPath"} {
      assert !WritesKey(entries[0], key) && !WritesKey(entries[1], key);
      assert LastWrite(entries[..1], key) == LastWrite([], key);
      assert LastWrite(entries, key) == None;
    }
    UpdateWalletLookup(wallets, selected, coin, entries, selected, "keyDerivationPath", coin);
    UpdateWalletLookup(wallets, selected, coin, entries, selected, "addressType", coin);
    UpdateWalletLookup(wallets, selected, coin, entries, w, key, c);
  }

  /**
   * The screen's state: its panel flags, the shown backup phrase and the
   * rescan flag, with a record of what it sends out.
   */
  class SettingsScreen {
    var flags: map<string, bool>
    var backupPhrase: string
    var rescanningWallet: bool
    /** Patches handed to `props.updateSettings`, in order. */
    var settingsUpdates: seq<Object>
    /** Wallet trees handed to `props.updateWallet`, in order. */
    var walletUpdates: seq<Object>
    /** Calls that clear the stored PIN. */
    var pinResets: nat
    /** "Currently generating addresses" alerts. */
    var alerts: nat
    /** Calls to the parent's `onBack`. */
    var parentBacks: nat

    constructor()
      ensures flags == INITIAL_FLAGS && backupPhrase == "" && !rescanningWallet
      ensures settingsUpdates == [] && walletUpdates == [] && pinResets == 0 && alerts == 0 && parentBacks == 0
    {
      flags := INITIAL_FLAGS;
      backupPhrase := "";
      rescanningWallet := false;
      settingsUpdates := [];
      walletUpdates := [];
      pinResets := 0;
      alerts := 0;
      parentBacks := 0;
    }

    /** `updateItems(items)`, its animations run to completion. */
    method UpdateItems(items: seq<Item>)
      modifies this`flags
      ensures flags == ApplyItems(old(flags), items)
    {
      var toDisplay: map<string, bool> := map[];
      var toHide: map<string, bool> := map[];
      for i := 0 to |items|
        invariant toDisplay == Shown(flags, items[..i])
        invariant toHide == Hidden(flags, items[..i])
      {
        var item := items[i];
        assert items[..i + 1][..i] == items[..i];
        if !(item.stateId in flags && flags[item.stateId] == item.display) {
          if item.display {
            toDisplay := toDisplay[item.stateId := true];
          } else {
            toHide := toHide[item.stateId := false];
          }
        }
      }
      assert items[..|items|] == items;
      flags := flags + toDisplay;
      flags := flags + toHide;
    }

    /** The shared body of the panel toggles. */
    method TogglePanel(id: string, display: bool)
      requires id != SETTINGS
      modifies this`flags
      ensures flags == old(flags)[id := display][SETTINGS := !display]
    {
      UpdateItems(TogglePair(id, display));
      TogglePairEffect(old(flags), id, display);
    }

    method ToggleImportPhrase(display: bool)
      modifies this`flags
      ensures flags == old(flags)[IMPORT := display][SETTINGS := !display]
    {
      TogglePanel(IMPORT, display);
    }

    method ToggleBroadcastTransaction(display: bool)
      modifies this`flags
      ensures flags == old(flags)[BROADCAST := display][SETTINGS := !display]
    {
      TogglePanel(BROADCAST, display);
    }

    method ToggleVerifyMessage(display: bool)
      modifies this`flags
      ensures flags == old(flags)[VERIFY := display][SETTINGS := !display]
    {
      TogglePanel(VERIFY, display);
    }

    method ToggleElectrumOptions(display: bool)
      modifies this`flags
      ensures flags == old(flags)[ELECTRUM := display][SETTINGS := !display]
    {
      TogglePanel(ELECTRUM, display);
    }

    /** Refused with an alert while a rescan runs or before the coin has addresses. */
    method ToggleSignMessage(display: bool, wallets: Object, selected: string, coin: string)
      modifies this`flags, this`alerts
      ensures rescanningWallet || !HasAddresses(Get(wallets, selected), coin) ==>
        alerts == old(alerts) + 1 && flags == old(flags)
      ensures !rescanningWallet && HasAddresses(Get(wallets, selected), coin) ==>
        alerts == old(alerts) && flags == old(flags)[SIGN := display][SETTINGS := !display]
    {
      var hasAddresses := HasAddresses(Get(wallets, selected), coin);
      if rescanningWallet || !hasAddresses {
        alerts := alerts + 1;
        return;
      }
      TogglePanel(SIGN, display);
    }

    /**
     * Showing the phrase needs a wallet and the phrase read from the
     * keychain (None when the read fails); it then marks the wallet backed
     * up. Hiding clears the phrase.
     */
    method ToggleBackupPhrase(selectedWallet: string, display: bool, mnemonic: Option<string>,
                              wallets: Object, now: Value)
      modifies this`flags, this`backupPhrase, this`walletUpdates
      ensures selectedWallet == "" || (display && mnemonic.None?) ==>
        flags == old(flags) && backupPhrase == old(backupPhrase) && walletUpdates == old(walletUpdates)
      ensures selectedWallet != "" && display && mnemonic.Some? ==>
        flags == old(flags)[BACKUP := true][SETTINGS := false] && backupPhrase == mnemonic.value
        && walletUpdates == old(walletUpdates) + [BackedUp(wallets, selectedWallet, now)]
      ensures selectedWallet != "" && !display ==>
        flags == old(flags)[BACKUP := false][SETTINGS := true] && backupPhrase == ""
        && walletUpdates == old(walletUpdates)
    {
      if selectedWallet == "" {
        return;
      }
      if display {
        if mnemonic.None? {
          return;
        }
        backupPhrase := mnemonic.value;
        TogglePanel(BACKUP, display);
        walletUpdates := walletUpdates + [BackedUp(wallets, selectedWallet, now)];
      } else {
        backupPhrase := "";
        TogglePanel(BACKUP, display);
      }
    }

    /** `toggleFiatModal`: the given value, or the flag negated when none is given. */
    method ToggleFiatModal(display: Option<bool>)
      modifies this`flags
      ensures flags == old(flags)[FIAT := if display.Some? then display.value else !IsOpen(old(flags), FIAT)]
    {
      flags := flags[FIAT := if display.Some? then display.value else !IsOpen(flags, FIAT)];
    }

    /** With a PIN set, clear it; otherwise turn the setting on and show the PIN pad. */
    method TogglePin(pin: Value)
      modifies this`flags, this`pinResets, this`settingsUpdates
      ensures Truthy(pin) ==>
        pinResets == old(pinResets) + 1 && settingsUpdates == old(settingsUpdates) + [map["pin" := Bool(false)]]
        && flags == old(flags)
      ensures !Truthy(pin) ==>
        pinResets == old(pinResets) && settingsUpdates == old(settingsUpdates) + [map["pin" := Bool(true)]]
        && flags == old(flags)[PIN := true][SETTINGS := false]
    {
      if Truthy(pin) {
        pinResets := pinResets + 1;
        settingsUpdates := settingsUpdates + [map["pin" := Bool(false)]];
      } else {
        settingsUpdates := settingsUpdates + [map["pin" := Bool(true)]];
        TogglePanel(PIN, true);
      }
    }

    method OnPinSuccess()
      modifies this`flags
      ensures flags == old(flags)[PIN := false][SETTINGS := true]
    {
      TogglePanel(PIN, false);
    }

    /** `toggleSetting(key)` and the fixed toggles built the same way. */
    method ToggleSetting(settings: Object, key: string)
      modifies this`settingsUpdates
      ensures settingsUpdates == old(settingsUpdates) + [TogglePatch(settings, key)]
    {
      settingsUpdates := settingsUpdates + [TogglePatch(settings, key)];
    }

    method ToggleTestnet(settings: Object)
      modifies this`settingsUpdates
      ensures settingsUpdates == old(settingsUpdates) + [TogglePatch(settings, "testnet")]
    {
      ToggleSetting(settings, "testnet");
    }

    method ToggleRbf(settings: Object)
      modifies this`settingsUpdates
      ensures settingsUpdates == old(settingsUpdates) + [TogglePatch(settings, "rbf")]
    {
      ToggleSetting(settings, "rbf");
    }

    method ToggleSendTransactionFallback(settings: Object)
      modifies this`settingsUpdates
      ensures settingsUpdates == old(settingsUpdates) + [TogglePatch(settings, "sendTransactionFallback")]
    {
      ToggleSetting(settings, "sendTransactionFallback");
    }

    /** Flip dark mode; when `forceAppUpdate` throws, dark mode is switched on instead. */
    method ToggleTheme(settings: Object, forceUpdateOk: bool)
      modifies this`settingsUpdates
      ensures settingsUpdates == old(settingsUpdates)
        + [if forceUpdateOk then TogglePatch(settings, "darkMode") else map["darkMode" := Bool(true)]]
    {
      if forceUpdateOk {
        ToggleSetting(settings, "darkMode");
      } else {
        settingsUpdates := settingsUpdates + [map["darkMode" := Bool(true)]];
      }
    }

    /**
     * The back button: close the first open panel (clearing the PIN, the
     * backup phrase or the message forms with it), or hand back to the
     * parent when none is open.
     */
    method OnBack(selectedWallet: string)
      modifies this`flags, this`backupPhrase, this`settingsUpdates, this`pinResets, this`parentBacks, this`walletUpdates
      ensures walletUpdates == old(walletUpdates)
      ensures FirstOpen(old(flags), PANELS).None? ==>
        parentBacks == old(parentBacks) + 1 && flags == old(flags)
        && settingsUpdates == old(settingsUpdates) && pinResets == old(pinResets) && backupPhrase == old(backupPhrase)
      ensures FirstOpen(old(flags), PANELS).Some? ==>
        var id := FirstOpen(old(flags), PANELS).value;
        parentBacks == old(parentBacks)
        && flags == (if id == BACKUP && selectedWallet == "" then old(flags)
                     else old(flags)[id := false][SETTINGS := true])
        && pinResets == old(pinResets) + (if id == PIN then 1 else 0)
        && settingsUpdates == old(settingsUpdates)
             + (if id == PIN then [map["pin" := Bool(false)]]
                else if id == SIGN then [SIGN_MESSAGE_RESET]
                else if id == VERIFY then [VERIFY_MESSAGE_RESET]
                else [])
        && backupPhrase == (if id == BACKUP && selectedWallet != "" then "" else old(backupPhrase))
    {
      var open := FirstOpen(flags, PANELS);
      if open.None? {
        parentBacks := parentBacks + 1;
        return;
      }
      var id := open.value;
      FirstOpenIsFirst(flags, PANELS);
      assert id in PANELS;
      if id == PIN {
        pinResets := pinResets + 1;
        TogglePanel(PIN, false);
        settingsUpdates := settingsUpdates + [map["pin" := Bool(false)]];
      } else if id == BACKUP {
        ToggleBackupPhrase(selectedWallet, false, None, map[], Undefined);
      } else if id == SIGN {
        settingsUpdates := settingsUpdates + [SIGN_MESSAGE_RESET];
        TogglePanel(SIGN, false);
      } else if id == VERIFY {
        settingsUpdates := settingsUpdates + [VERIFY_MESSAGE_RESET];
        TogglePanel(VERIFY, false);
      } else if id == BROADCAST {
        ToggleBroadcastTransaction(false);
      } else {
        TogglePanel(id, false);
      }
    }

    /** `getBackupPhrase()`: the words of the shown phrase, numbered from 1. */
    method GetBackupPhrase() returns (phrase: seq<PhraseWord>)
      ensures |phrase| == |Split(backupPhrase, ' ')|
      ensures forall i :: 0 <= i < |phrase| ==> phrase[i] == PhraseWord(i + 1, Split(backupPhrase, ' ')[i])
      ensures Join(Words(phrase), ' ') == backupPhrase
    {
      var words := Split(backupPhrase, ' ');
      phrase := [];
      for i := 0 to |words|
        invariant |phrase| == i
        invariant forall j :: 0 <= j < i ==> phrase[j] == PhraseWord(j + 1, words[j])
      {
        phrase := phrase + [PhraseWord(i + 1, words[i])];
      }
      assert Words(phrase) == words;
      JoinSplit(backupPhrase, ' ');
    }

    /** `updateWallet({ data })`: dispatch the selected wallet with the written keys merged in. */
    method UpdateWallet(wallets: Object, selected: string, coin: string, data: Value)
      modifies this`walletUpdates
      ensures UpdateWalletDispatches(wallets, selected, data) ==>
        walletUpdates == old(walletUpdates)
          + [UpdatedWallets(wallets, selected, NewData(Get(wallets, selected), coin, Entries(data).value))]
      ensures !UpdateWalletDispatches(wallets, selected, data) ==> walletUpdates == old(walletUpdates)
    {
      var entries := Entries(data);
      if entries.None? {
        return;
      }
      var newData := CollectNewData(Get(wallets, selected), coin, entries.value);
      if newData.None? {
        return;
      }
      walletUpdates := walletUpdates + [UpdatedWallets(wallets, selected, newData.value)];
    }

    /**
     * `rescanWallet()`: raise the rescan flag, dispatch the reset tree, and
     * lower the flag once `refreshWallet` resolves; a failure on the way
     * leaves the flag raised.
     */
    method RescanWallet(wallets: Object, selected: string, coin: string, refreshOk: bool)
      modifies this`rescanningWallet, this`walletUpdates
      ensures Rescanned(wallets, selected, coin).Some? ==>
        walletUpdates == old(walletUpdates) + [Rescanned(wallets, selected, coin).value]
      ensures Rescanned(wallets, selected, coin).None? ==> walletUpdates == old(walletUpdates)
      ensures rescanningWallet <==> !(Rescanned(wallets, selected, coin).Some? && refreshOk)
    {
      rescanningWallet := true;
      var tree := Rescanned(wallets, selected, coin);
      if tree.None? {
        return;
      }
      walletUpdates := walletUpdates + [tree.value];
      if refreshOk {
        rescanningWallet := false;
      }
    }

    /**
     * `updateAddressType({ addressType, rescanWallet })`: write the address
     * type and its derivation path for the selected coin, then rescan the
     * wallet as updated.
     */
    method UpdateAddressType(wallets: Object, selected: string, coin: string, addressType: Value,
                             rescan: bool, refreshOk: bool)
      modifies this`rescanningWallet, this`walletUpdates
      ensures var data := AddressTypeData(AddressTypeArg(addressType));
        var updates := if UpdateWalletDispatches(wallets, selected, data)
          then [UpdatedWallets(wallets, selected, NewData(Get(wallets, selected), coin, Entries(data).value))]
          else [];
        var current := if updates == [] then wallets else updates[0];
        var rescans := if rescan && Rescanned(current, selected, coin).Some?
          then [Rescanned(current, selected, coin).value] else [];
        walletUpdates == old(walletUpdates) + updates + rescans
        && rescanningWallet == (if rescan then !(Rescanned(current, selected, coin).Some? && refreshOk)
                                else old(rescanningWallet))
    {
      var arg := AddressTypeArg(addressType);
      var data := AddressTypeData(arg);
      var before := walletUpdates;
      UpdateWallet(wallets, selected, coin, data);
      var current := if |walletUpdates| > |before| then walletUpdates[|walletUpdates| - 1] else wallets;
      if rescan {
        RescanWallet(current, selected, coin, refreshOk);
      }
    }

    /** `_resetWalletForPassphrase()`. */
    method ResetWalletForPassphrase(wallets: Object, selected: string, defaultShape: Object)
      modifies this`walletUpdates
      ensures ResetForPassphrase(wallets, selected, defaultShape).Some? ==>
        walletUpdates == old(walletUpdates) + [ResetForPassphrase(wallets, selected, defaultShape).value]
      ensures ResetForPassphrase(wallets, selected, defaultShape).None? ==> walletUpdates == old(walletUpdates)
    {
      var tree := ResetForPassphrase(wallets, selected, defaultShape);
      if tree.Some? {
        walletUpdates := walletUpdates + [tree.value];
      }
    }
  }
}

=== FILE: strings.dfy ===
/**
 * The JavaScript string operations the wallet screens rely on: `trim`,
 * `split` on one character and its inverse `join`, `slice` with its
 * clamping of out-of-range bounds, and decimal rendering of integers.
 */
module Strings {

  /** The characters `String.prototype.trim` removes: white space and line terminators. */
  predicate IsWhitespace(c: char)
  {
    c == ' ' || c == '\t' || c == '\n' || c == '\r' || c == '\U{B}' || c == '\U{C}'
    || c == '\U{A0}' || c == '\U{1680}' || ('\U{2000}' <= c <= '\U{200A}')
    || c == '\U{2028}' || c == '\U{2029}' || c == '\U{202F}' || c == '\U{205F}'
    || c == '\U{3000}' || c == '\U{FEFF}'
  }

  predicate IsBlank(s: string)
  {
    forall i :: 0 <= i < |s| ==> IsWhitespace(s[i])
  }

  function TrimStart(s: string): string
  {
    if s != [] && IsWhitespace(s[0]) then TrimStart(s[1..]) else s
  }

  function TrimEnd(s: string): string
  {
    if s != [] && IsWhitespace(s[|s| - 1]) then TrimEnd(s[..|s| - 1]) else s
  }

  /** `s.trim()`. */
  function Trim(s: string): string
  {
    TrimEnd(TrimStart(s))
  }

  lemma {:induction false} TrimStartBlank(s: string)
    ensures TrimStart(s) == [] <==> IsBlank(s)
    ensures TrimStart(s) != [] ==> !IsWhitespace(TrimStart(s)[0])
  {
    if s != [] && IsWhitespace(s[0]) {
      TrimStartBlank(s[1..]);
      if IsBlank(s[1..]) {
        forall i | 0 <= i < |s|
          ensures IsWhitespace(s[i])
        {
          if i > 0 {
            assert s[i] == s[1..][i - 1];
          }
        }
      }
    }
  }

  lemma {:induction false} TrimEndKeepsHead(s: string)
    requires s != [] && !IsWhitespace(s[0])
    ensures TrimEnd(s) != []
  {
    if IsWhitespace(s[|s| - 1]) {
      TrimEndKeepsHead(s[..|s| - 1]);
    }
  }

  /** `s.trim() === ""` exactly when `s` is all white space. */
  lemma TrimEmptyIffBlank(s: string)
    ensures Trim(s) == "" <==> IsBlank(s)
  {
    TrimStartBlank(s);
    if TrimStart(s) != [] {
      TrimEndKeepsHead(TrimStart(s));
    }
  }

  /** `s.split(sep)` for a one-character separator: never empty, "" gives [""]. */
  function Split(s: string, sep: char): (r: seq<string>)
    ensures |r| >= 1
  {
    if s == [] then [""]
    else
      var rest := Split(s[1..], sep);
      if s[0] == sep then [""] + rest else [[s[0]] + rest[0]] + rest[1..]
  }

  /** `parts.join(sep)`. */
  function Join(parts: seq<string>, sep: char): string
  {
    if parts == [] then ""
    else if |parts| == 1 then parts[0]
    else parts[0] + [sep] + Join(parts[1..], sep)
  }

  /** Joining one more piece appends a separator and the piece. */
  lemma {:induction false} JoinSnoc(parts: seq<string>, last: string, sep: char)
    requires |parts| >= 1
    ensures Join(parts + [last], sep) == Join(parts, sep) + [sep] + last
  {
    if |parts| > 1 {
      JoinSnoc(parts[1..], last, sep);
      assert (parts + [last])[1..] == parts[1..] + [last];
    } else {
      assert (parts + [last])[1..] == [last];
    }
  }

  /** Joining the pieces of a split gives back the string. */
  lemma {:induction false} JoinSplit(s: string, sep: char)
    ensures Join(Split(s, sep), sep) == s
  {
    if s != [] {
      var rest := Split(s[1..], sep);
      JoinSplit(s[1..], sep);
      if s[0] == sep {
        assert ([""] + rest)[1..] == rest;
        assert s == [sep] + s[1..];
      } else {
        var parts := [[s[0]] + rest[0]] + rest[1..];
        if |rest| == 1 {
          assert s == [s[0]] + s[1..];
        } else {
          assert parts[1..] == rest[1..];
          assert s == [s[0]] + s[1..];
        }
      }
    }
  }

  /** Splitting a string that starts with a non-separator extends the first piece. */
  lemma SplitCons(c: char, rest: string, sep: char)
    requires c != sep
    ensures Split([c] + rest, sep) == [[c] + Split(rest, sep)[0]] + Split(rest, sep)[1..]
  {
    assert ([c] + rest)[1..] == rest;
  }

  lemma {:induction false} SplitPrefix(p: string, t: string, sep: char)
    requires sep !in p
    ensures Split(p + t, sep) == [p + Split(t, sep)[0]] + Split(t, sep)[1..]
  {
    var r := Split(t, sep);
    if p != [] {
      var q := p[1..];
      assert p[0] in p;
      SplitPrefix(q, t, sep);
      assert p + t == [p[0]] + (q + t);
      SplitCons(p[0], q + t, sep);
      assert [p[0]] + (q + r[0]) == p + r[0];
    } else {
      assert p + t == t && p + r[0] == r[0];
    }
  }

  /** Splitting a join of separator-free pieces gives back the pieces. */
  lemma {:induction false} SplitJoin(parts: seq<string>, sep: char)
    requires |parts| >= 1
    requires forall i :: 0 <= i < |parts| ==> sep !in parts[i]
    ensures Split(Join(parts, sep), sep) == parts
  {
    if |parts| == 1 {
      SplitPrefix(parts[0], "", sep);
      assert parts[0] + "" == parts[0];
    } else {
      var rest := Join(parts[1..], sep);
      var t := [sep] + rest;
      SplitJoin(parts[1..], sep);
      assert parts[0] + [sep] + rest == parts[0] + t;
      assert t[1..] == rest;
      assert Split(t, sep) == [""] + Split(rest, sep);
      SplitPrefix(parts[0], t, sep);
      assert parts[0] + "" == parts[0];
      assert ([""] + Split(rest, sep))[1..] == parts[1..];
      assert parts == [parts[0]] + parts[1..];
    }
  }

  /** `s.slice(i, j)` for non-negative bounds: both clamped to the length, empty when they cross. */
  function Slice(s: string, i: nat, j: nat): (r: string)
    ensures |r| <= |s|
  {
    var from := if i < |s| then i else |s|;
    var to := if j < |s| then j else |s|;
    if to <= from then "" else s[from..to]
  }

  /** Adjacent slices concatenate. */
  lemma SliceAppend(s: string, i: nat, j: nat, k: nat)
    requires i <= j <= k
    ensures Slice(s, i, j) + Slice(s, j, k) == Slice(s, i, k)
  {
    if j >= |s| {
      assert Slice(s, j, k) == "";
      assert Slice(s, i, j) == Slice(s, i, k);
    } else if k >= |s| {
      assert s[i..j] + s[j..] == s[i..];
    } else {
      assert s[i..j] + s[j..k] == s[i..k];
    }
  }

  /** A slice to the end or beyond is the whole suffix. */
  lemma SliceToEnd(s: string, i: nat, j: nat)
    requires i <= |s| <= j
    ensures Slice(s, i, j) == s[i..]
  {
  }

  /** The string with every occurrence of `c` removed. */
  function Remove(s: string, c: char): (r: string)
    ensures c !in r
  {
    if s == [] then "" else Remove(s[..|s| - 1], c) + (if s[|s| - 1] == c then "" else [s[|s| - 1]])
  }

  /** The number of occurrences of `c`. */
  function Count(s: string, c: char): nat
  {
    if s == [] then 0 else Count(s[..|s| - 1], c) + (if s[|s| - 1] == c then 1 else 0)
  }

  lemma {:induction false} RemoveAppend(a: string, b: string, c: char)
    ensures Remove(a + b, c) == Remove(a, c) + Remove(b, c)
    ensures Count(a + b, c) == Count(a, c) + Count(b, c)
  {
    if b != [] {
      assert (a + b)[..|a + b| - 1] == a + b[..|b| - 1];
      RemoveAppend(a, b[..|b| - 1], c);
    } else {
      assert a + b == a;
    }
  }

  lemma {:induction false} RemoveAbsent(s: string, c: char)
    requires c !in s
    ensures Remove(s, c) == s
    ensures Count(s, c) == 0
  {
    if s != [] {
      RemoveAbsent(s[..|s| - 1], c);
      assert s == s[..|s| - 1] + [s[|s| - 1]];
    }
  }

  function DigitChar(d: nat): char
    requires d < 10
  {
    "0123456789"[d]
  }

  /** Decimal digits of a natural number. */
  function NatToString(n: nat): (r: string)
    ensures |r| >= 1
  {
    if n < 10 then [DigitChar(n)] else NatToString(n / 10) + [DigitChar(n % 10)]
  }

  /** `${n}` for an integer. */
  function IntToString(n: int): (r: string)
    ensures |r| >= 1
  {
    if n < 0 then "-" + NatToString(-n) else NatToString(n)
  }
}

=== FILE: transaction_detail.dfy ===
/**
 * The logic of the transaction detail screen
 * (src/components/TransactionDetail.js): confirmation count and status,
 * the OP_RETURN message text, the grouped display of addresses and hashes,
 * the replace-by-fee (RBF) fee stepper with its eligibility and
 * affordability tests, the block explorer links, and the UTXO lock badges.
 *
 * `getByteCount` (utils/helpers) and `supportsRbf` (utils/networks) are not
 * part of this model; they are passed in as a function and a set of coins.
 */
module TransactionDetail {
  import opened Js
  import opened Strings

  // ---------------------------------------------------------------------
  // Confirmations and status
  // ---------------------------------------------------------------------

  /** The transaction's `block` field: `null`, or a height, 0 while unconfirmed. */
  datatype Block = NullBlock | AtHeight(height: int)

  predicate Unmined(block: Block)
  {
    block.NullBlock? || block.height == 0
  }

  /**
   * The number of confirmations `getConfirmations()` computes for a mined
   * transaction, with `tip` the wallet's block height for the coin: the
   * tip block itself counts as one. Unmined transactions count 0.
   */
  function Confirmations(block: Block, tip: int): int
  {
    match block
    case NullBlock => 0
    case AtHeight(b) => if b == 0 then 0 else tip - (b - 1)
  }

  /**
   * `formatNumber` (utils/helpers) is not part of this model; it is a
   * parameter, since the same helper also formats `toFixed` strings on this
   * screen and its result need not be a number.
   */
  type Formatter = int -> Value

  /**
   * `getConfirmations()`: the literal 0 for an unmined transaction,
   * otherwise the count passed through `formatNumber`.
   */
  function GetConfirmations(block: Block, tip: int, formatNumber: Formatter): Value
  {
    if Unmined(block) then Num(0.0) else formatNumber(Confirmations(block, tip))
  }

  datatype Status = Pending | Confirmed

  /** The status line: pending while unmined or while `confirmations === 0`. */
  function StatusOf(block: Block, confirmations: Value): Status
  {
    if block == AtHeight(0) || block == NullBlock || confirmations == Num(0.0) then Pending else Confirmed
  }

  /**
   * JavaScript's `v > 0`: a string is converted by `parse` (JavaScript's
   * string-to-number conversion, `None` standing for NaN), and NaN compares
   * false.
   */
  function AboveZero(v: Value, parse: string -> Option<real>): bool
  {
    match v
    case Num(x) => x > 0.0
    case Str(s) => (match parse(s) case Some(x) => x > 0.0 case None => false)
    case Bool(b) => b
    case _ => false
  }

  /**
   * An unmined transaction has no confirmations; a transaction mined at or
   * below the tip has between 1 (in the tip block itself) and `tip`, and
   * each new block adds one.
   */
  lemma ConfirmationsCount(block: Block, tip: int)
    ensures Unmined(block) ==> Confirmations(block, tip) == 0
    ensures block.AtHeight? && 0 < block.height <= tip ==>
      1 <= Confirmations(block, tip) <= tip && (Confirmations(block, tip) == 1 <==> block.height == tip)
    ensures !Unmined(block) ==> Confirmations(block, tip + 1) == Confirmations(block, tip) + 1
  {
  }

  /**
   * The status line depends on what `formatNumber` returns. When it returns
   * the count as a number, the screen shows "Pending" exactly for unmined
   * transactions and for a block one past the tip. When it returns a
   * string, `confirmations === 0` never holds for a mined transaction, and
   * "Pending" is shown exactly for unmined ones.
   */
  lemma PendingExactly(block: Block, tip: int, formatNumber: Formatter)
    ensures formatNumber(Confirmations(block, tip)) == Num(Confirmations(block, tip) as real) ==>
      (StatusOf(block, GetConfirmations(block, tip, formatNumber)) == Pending <==>
       Unmined(block) || block.height == tip + 1)
    ensures formatNumber(Confirmations(block, tip)).Str? ==>
      (StatusOf(block, GetConfirmations(block, tip, formatNumber)) == Pending <==> Unmined(block))
  {
  }

  /**
   * The `confirmations > 0` test of `canRbf()` never holds for an unmined
   * transaction; with a numeric `formatNumber` it holds exactly when the
   * count is positive, and with a string result it holds exactly when the
   * string parses to a positive number.
   */
  lemma ConfirmedTest(block: Block, tip: int, formatNumber: Formatter, parse: string -> Option<real>)
    ensures Unmined(block) ==> !AboveZero(GetConfirmations(block, tip, formatNumber), parse)
    ensures formatNumber(Confirmations(block, tip)) == Num(Confirmations(block, tip) as real) ==>
      (AboveZero(GetConfirmations(block, tip, formatNumber), parse) <==> Confirmations(block, tip) > 0)
    ensures !Unmined(block) && formatNumber(Confirmations(block, tip)).Str? ==>
      (AboveZero(GetConfirmations(block, tip, formatNumber), parse) <==>
       var p := parse(formatNumber(Confirmations(block, tip)).s); p.Some? && p.value > 0.0)
  {
  }

  // ---------------------------------------------------------------------
  // Messages
  // ---------------------------------------------------------------------

  /** Every message followed by a line break. */
  function Terminated(ms: seq<string>): string
  {
    if ms == [] then "" else Terminated(ms[..|ms| - 1]) + ms[|ms| - 1] + "\n"
  }

  /** The message text: a lone message as it is, otherwise each message with its own line break. */
  function MessagesText(ms: seq<string>): string
  {
    if |ms| == 1 then ms[0] else Terminated(ms)
  }

  /**
   * `getMessages()`: `messages` is None when the transaction has no
   * `messages` array, which the catch turns into "".
   */
  method GetMessages(messages: Option<seq<string>>) returns (message: string)
    ensures message == if messages.None? then "" else MessagesText(messages.value)
  {
    message := "";
    if messages.None? {
      return;
    }
    var ms := messages.value;
    var messageLength := |ms|;
    for i := 0 to |ms|
      invariant messageLength == 1 ==> message == if i == 0 then "" else ms[0]
      invariant messageLength != 1 ==> message == Terminated(ms[..i])
    {
      assert ms[..i + 1][..i] == ms[..i];
      if messageLength == 1 && i + 1 == messageLength {
        message := message + ms[i];
      } else {
        message := message + ms[i] + "\n";
      }
    }
    assert ms[..|ms|] == ms;
  }

  lemma {:induction false} TerminatedIsJoin(ms: seq<string>)
    ensures Terminated(ms) == Join(ms + [""], '\n')
  {
    if ms != [] {
      var init := ms[..|ms| - 1];
      var m := ms[|ms| - 1];
      TerminatedIsJoin(init);
      assert ms == init + [m];
      JoinSnoc(ms, "", '\n');
      if init == [] {
        assert ms == [m];
      } else {
        JoinSnoc(init, "", '\n');
        JoinSnoc(init, m, '\n');
      }
    }
  }

  /**
   * With two or more messages free of line breaks, splitting the text at line
   * breaks gives the messages back followed by one empty piece: every
   * message, the last included, carries a trailing line break.
   */
  lemma MessagesRoundTrip(ms: seq<string>)
    requires forall i :: 0 <= i < |ms| ==> '\n' !in ms[i]
    ensures ms == [] ==> MessagesText(ms) == ""
    ensures |ms| == 1 ==> MessagesText(ms) == ms[0]
    ensures |ms| >= 2 ==> Split(MessagesText(ms), '\n') == ms + [""]
  {
    if |ms| >= 2 {
      TerminatedIsJoin(ms);
      var parts := ms + [""];
      forall i | 0 <= i < |parts|
        ensures '\n' !in parts[i]
      {
        if i < |ms| {
          assert parts[i] == ms[i];
        }
      }
      SplitJoin(parts, '\n');
    }
  }

  // ---------------------------------------------------------------------
  // Address display
  // ---------------------------------------------------------------------

  /** Groups of 4, 4 and 4 characters, then 4 and the rest if over 20 long, else the rest. */
  function Groups(x: string): string
  {
    var res := Slice(x, 0, 4) + " " + Slice(x, 4, 8) + " " + Slice(x, 8, 12);
    if |x| > 20 then res + " " + Slice(x, 12, 16) + " " + Slice(x, 16, |x|)
    else res + " " + Slice(x, 12, |x|)
  }

  /** `firstHalf(address)`: the first ⌊n/2⌋ characters, grouped. */
  function FirstHalf(address: string): string
  {
    Groups(Slice(address, 0, |address| / 2))
  }

  /** `secondHalf(address)`: its slice end is `undefined`, so it runs to the end. */
  function SecondHalf(address: string): string
  {
    Groups(Slice(address, |address| / 2, |address|))
  }

  function Prettify(address: string): string
  {
    FirstHalf(address) + " " + SecondHalf(address)
  }

  /** The pieces `Groups` puts spaces between. */
  function GroupParts(x: string): seq<string>
  {
    if |x| > 20 then [Slice(x, 0, 4), Slice(x, 4, 8), Slice(x, 8, 12), Slice(x, 12, 16), Slice(x, 16, |x|)]
    else [Slice(x, 0, 4), Slice(x, 4, 8), Slice(x, 8, 12), Slice(x, 12, |x|)]
  }

  /** The pieces concatenated without separators. */
  function Concat(parts: seq<string>): string
  {
    if parts == [] then "" else parts[0] + Concat(parts[1..])
  }

  lemma JoinCons(p: string, rest: seq<string>, sep: char)
    requires |rest| >= 1
    ensures Join([p] + rest, sep) == p + [sep] + Join(rest, sep)
  {
    assert ([p] + rest)[1..] == rest;
  }

  lemma ConcatCons(p: string, rest: seq<string>)
    ensures Concat([p] + rest) == p + Concat(rest)
  {
    assert ([p] + rest)[1..] == rest;
  }

  lemma JoinFour(a: string, b: string, c: string, d: string)
    ensures Join([a, b, c, d], ' ') == a + " " + b + " " + c + " " + d
  {
    JoinCons(c, [d], ' ');
    JoinCons(b, [c, d], ' ');
    JoinCons(a, [b, c, d], ' ');
  }

  lemma JoinFive(a: string, b: string, c: string, d: string, e: string)
    ensures Join([a, b, c, d, e], ' ') == a + " " + b + " " + c + " " + d + " " + e
  {
    JoinFour(b, c, d, e);
    JoinCons(a, [b, c, d, e], ' ');
  }

  lemma GroupsAsJoin(x: string)
    ensures Groups(x) == Join(GroupParts(x), ' ')
  {
    var a, b, c := Slice(x, 0, 4), Slice(x, 4, 8), Slice(x, 8, 12);
    if |x| > 20 {
      JoinFive(a, b, c, Slice(x, 12, 16), Slice(x, 16, |x|));
    } else {
      JoinFour(a, b, c, Slice(x, 12, |x|));
    }
  }

  lemma ConcatFour(a: string, b: string, c: string, d: string)
    ensures Concat([a, b, c, d]) == a + b + c + d
  {
    ConcatCons(d, []);
    ConcatCons(c, [d]);
    ConcatCons(b, [c, d]);
    ConcatCons(a, [b, c, d]);
    assert d + "" == d;
  }

  lemma ConcatFive(a: string, b: string, c: string, d: string, e: string)
    ensures Concat([a, b, c, d, e]) == a + b + c + d + e
  {
    ConcatFour(b, c, d, e);
    ConcatCons(a, [b, c, d, e]);
  }

  /** The first twelve characters, as three slices of four. */
  lemma FirstTwelve(x: string)
    ensures Slice(x, 0, 4) + Slice(x, 4, 8) + Slice(x, 8, 12) == Slice(x, 0, 12)
  {
    SliceAppend(x, 0, 4, 8);
    SliceAppend(x, 0, 8, 12);
  }

  lemma GroupPartsCover(x: string)
    ensures Concat(GroupParts(x)) == x
  {
    var a, b, c := Slice(x, 0, 4), Slice(x, 4, 8), Slice(x, 8, 12);
    FirstTwelve(x);
    SliceToEnd(x, 0, |x|);
    if |x| > 20 {
      var d, e := Slice(x, 12, 16), Slice(x, 16, |x|);
      ConcatFive(a, b, c, d, e);
      SliceAppend(x, 0, 12, 16);
      SliceAppend(x, 0, 16, |x|);
    } else {
      var d := Slice(x, 12, |x|);
      ConcatFour(a, b, c, d);
      if |x| >= 12 {
        SliceAppend(x, 0, 12, |x|);
      }
    }
  }

  /** Joining with spaces adds one space per gap and nothing else. */
  lemma {:induction false} JoinWithSpaces(parts: seq<string>)
    requires |parts| >= 1
    ensures Remove(Join(parts, ' '), ' ') == Remove(Concat(parts), ' ')
    ensures Count(Join(parts, ' '), ' ') == Count(Concat(parts), ' ') + |parts| - 1
  {
    var p := parts[0];
    if |parts| == 1 {
      assert parts == [p] + [];
      ConcatCons(p, []);
      assert p + "" == p;
    } else {
      var rest := parts[1..];
      assert parts == [p] + rest;
      var j, c := Join(rest, ' '), Concat(rest);
      JoinWithSpaces(rest);
      JoinCons(p, rest, ' ');
      ConcatCons(p, rest);
      SpaceJoin(p, j);
      RemoveAppend(p, c, ' ');
    }
  }

  /** A single space between two strings. */
  lemma SpaceJoin(a: string, b: string)
    ensures Remove(a + " " + b, ' ') == Remove(a, ' ') + Remove(b, ' ')
    ensures Count(a + " " + b, ' ') == Count(a, ' ') + Count(b, ' ') + 1
  {
    RemoveSnocSeparator(a, ' ');
    RemoveAppend(a + " ", b, ' ');
  }

  /** A trailing separator is removed and counted once. */
  lemma RemoveSnocSeparator(s: string, c: char)
    ensures Remove(s + [c], c) == Remove(s, c)
    ensures Count(s + [c], c) == Count(s, c) + 1
  {
    assert (s + [c])[..|s|] == s;
  }

  /** Grouping inserts 3 spaces (4 when over 20 characters) and nothing else. */
  lemma GroupsOnlyAddSpaces(x: string)
    ensures Remove(Groups(x), ' ') == Remove(x, ' ')
    ensures Count(Groups(x), ' ') == Count(x, ' ') + (if |x| > 20 then 4 else 3)
  {
    GroupsAsJoin(x);
    GroupPartsCover(x);
    JoinWithSpaces(GroupParts(x));
  }

  /**
   * With no spaces in the address, removing the spaces of the display gives
   * the address back, the first half giving its first ⌊n/2⌋ characters and
   * the second half the rest.
   */
  lemma PrettifyRoundTrip(address: string)
    requires ' ' !in address
    ensures Remove(FirstHalf(address), ' ') == address[..|address| / 2]
    ensures Remove(SecondHalf(address), ' ') == address[|address| / 2..]
    ensures Remove(Prettify(address), ' ') == address
  {
    var h := |address| / 2;
    var first := Slice(address, 0, h);
    var second := Slice(address, h, |address|);
    assert first == address[..h];
    SliceToEnd(address, h, |address|);
    assert address == first + second;
    assert ' ' !in first && ' ' !in second;
    GroupsOnlyAddSpaces(first);
    GroupsOnlyAddSpaces(second);
    RemoveAbsent(first, ' ');
    RemoveAbsent(second, ' ');
    SpaceJoin(FirstHalf(address), SecondHalf(address));
  }

  /**
   * The groups of a space-free half of at least 12 characters: 4, 4, 4, 4
   * and the remainder when it is over 20 characters, else 4, 4, 4 and the
   * remainder.
   */
  lemma GroupLayout(x: string)
    requires ' ' !in x && |x| >= 12
    ensures |x| > 20 ==> Split(Groups(x), ' ') == [x[..4], x[4..8], x[8..12], x[12..16], x[16..]]
    ensures |x| <= 20 ==> Split(Groups(x), ' ') == [x[..4], x[4..8], x[8..12], x[12..]]
  {
    GroupsAsJoin(x);
    var parts := GroupParts(x);
    SliceHasNo(x, ' ', 0, 4);
    SliceHasNo(x, ' ', 4, 8);
    SliceHasNo(x, ' ', 8, 12);
    SliceHasNo(x, ' ', 12, 16);
    SliceHasNo(x, ' ', 16, |x|);
    SliceHasNo(x, ' ', 12, |x|);
    assert Slice(x, 0, 4) == x[..4] && Slice(x, 4, 8) == x[4..8] && Slice(x, 8, 12) == x[8..12];
    assert Slice(x, 12, |x|) == x[12..];
    assert |x| > 20 ==> Slice(x, 12, 16) == x[12..16] && Slice(x, 16, |x|) == x[16..];
    SplitJoin(parts, ' ');
  }

  lemma SliceHasNo(x: string, c: char, i: nat, j: nat)
    requires c !in x
    ensures c !in Slice(x, i, j)
  {
  }

  // ---------------------------------------------------------------------
  // Replace-by-fee
  // ---------------------------------------------------------------------

  /** The stored RBF record of the selected transaction. */
  datatype RbfData = RbfData(utxoCount: nat, changeAddress: Value, message: Value, transactionFee: int)

  /** What `canAffordRbf` reads from the wallet: the RBF record, if any, the address type and balance. */
  datatype RbfView = RbfView(rbfData: Option<RbfData>, addressType: Value, confirmedBalance: int)

  /**
   * `getByteCount({[addressType]: inputs}, {[addressType]: outputs}, message)`,
   * a function of the address type, the input and output counts and the message.
   */
  type ByteCounter = (Value, nat, nat, Value) -> int

  function Abs(x: int): nat
  {
    if x < 0 then -x else x
  }

  /** The transaction size the fee is computed over: one output, two with a change address. */
  function TransactionSize(view: RbfView, data: RbfData, byteCount: ByteCounter): int
  {
    byteCount(view.addressType, data.utxoCount, if Truthy(data.changeAddress) then 2 else 1, data.message)
  }

  /**
   * `canAffordRbf(arg)`: can the confirmed balance pay the difference between
   * the total fee at the new rate and the original total fee? A missing or
   * zero argument falls back to the current `rbfValue`; a missing RBF record
   * throws, and the `undefined` the catch returns counts as false.
   */
  function CanAffordRbf(view: RbfView, stateRbfValue: int, arg: Option<int>, byteCount: ByteCounter): bool
  {
    match view.rbfData
    case None => false
    case Some(data) =>
      var rbfValue := if arg.Some? && arg.value != 0 then arg.value else stateRbfValue;
      var size := TransactionSize(view, data, byteCount);
      var initialTotalFee := size * data.transactionFee;
      var totalFee := rbfValue * size;
      view.confirmedBalance > Abs(totalFee - initialTotalFee)
  }

  lemma AbsProduct(a: int, b: int)
    ensures Abs(a * b) == Abs(a) * Abs(b)
  {
    if a < 0 && b >= 0 {
      assert a * b == -((-a) * b);
    } else if a >= 0 && b < 0 {
      assert a * b == -(a * (-b));
    } else if a < 0 && b < 0 {
      assert a * b == (-a) * (-b);
    }
  }

  /** Affordable exactly when the balance exceeds size × |new rate − original rate|. */
  lemma AffordExactly(view: RbfView, stateRbfValue: int, arg: Option<int>, byteCount: ByteCounter)
    ensures CanAffordRbf(view, stateRbfValue, arg, byteCount) <==>
      view.rbfData.Some?
      && var rate := if arg.Some? && arg.value != 0 then arg.value else stateRbfValue;
         view.confirmedBalance
           > Abs(TransactionSize(view, view.rbfData.value, byteCount)) * Abs(rate - view.rbfData.value.transactionFee)
  {
    if view.rbfData.Some? {
      var data := view.rbfData.value;
      var rate := if arg.Some? && arg.value != 0 then arg.value else stateRbfValue;
      var size := TransactionSize(view, data, byteCount);
      assert rate * size - size * data.transactionFee == size * (rate - data.transactionFee);
      AbsProduct(size, rate - data.transactionFee);
    }
  }

  /** Above the original rate, a rate that is affordable keeps every lower rate affordable. */
  lemma AffordMonotone(view: RbfView, stateRbfValue: int, lower: int, higher: int, byteCount: ByteCounter)
    requires view.rbfData.Some? && view.rbfData.value.transactionFee <= lower <= higher
    requires 0 < lower
    requires CanAffordRbf(view, stateRbfValue, Some(higher), byteCount)
    ensures CanAffordRbf(view, stateRbfValue, Some(lower), byteCount)
  {
    var fee := view.rbfData.value.transactionFee;
    var size := Abs(TransactionSize(view, view.rbfData.value, byteCount));
    AffordExactly(view, stateRbfValue, Some(higher), byteCount);
    AffordExactly(view, stateRbfValue, Some(lower), byteCount);
    assert Abs(lower - fee) == lower - fee && Abs(higher - fee) == higher - fee;
    ScaleMonotone(size, lower - fee, higher - fee);
  }

  lemma ScaleMonotone(k: nat, a: int, b: int)
    requires a <= b
    ensures k * a <= k * b
  {
    assert k * b - k * a == k * (b - a);
  }

  /** One step of `updateRbfValue(action)`: the new rate, and whether the 100 ms repeat is scheduled. */
  datatype RbfStepResult = RbfStepResult(rbfValue: int, repeats: bool)

  function RbfStep(rbfValue: int, initialFee: int, action: string, canAffordNext: bool): RbfStepResult
  {
    var value := if action == "increase" then 1 else -1;
    if rbfValue == initialFee + 1 && action == "decrease" then RbfStepResult(rbfValue, false)
    else if action == "increase" && !canAffordNext then RbfStepResult(rbfValue, false)
    else if rbfValue < initialFee + 1 then RbfStepResult(initialFee + 1, false)
    else RbfStepResult(rbfValue + value, true)
  }

  /**
   * The floor: for the two actions the buttons send, a change always leaves
   * the rate at least one above the original, a decrease at the floor does
   * nothing, an increase changes the rate only when the next rate is
   * affordable, and a rate at or above the floor stays there.
   */
  lemma RbfFloor(rbfValue: int, initialFee: int, action: string, canAffordNext: bool)
    requires action == "increase" || action == "decrease"
    ensures var r := RbfStep(rbfValue, initialFee, action, canAffordNext);
      (r.rbfValue != rbfValue ==> r.rbfValue >= initialFee + 1)
      && (rbfValue >= initialFee + 1 ==> r.rbfValue >= initialFee + 1)
      && (rbfValue == initialFee + 1 && action == "decrease" ==> r == RbfStepResult(rbfValue, false))
      && (action == "increase" && r.rbfValue != rbfValue ==> canAffordNext)
      && (action == "increase" && canAffordNext && rbfValue >= initialFee + 1 ==> r == RbfStepResult(rbfValue + 1, true))
  {
  }

  /** Any other action string steps down like a decrease but skips the floor test. */
  lemma OtherActionPassesFloor(initialFee: int, action: string, canAffordNext: bool)
    requires action != "increase" && action != "decrease"
    ensures RbfStep(initialFee + 1, initialFee, action, canAffordNext) == RbfStepResult(initialFee, true)
  {
  }

  /** The component's `rbfValue` and `initialFee` state and its press-and-hold timer. */
  class RbfStepper {
    var rbfValue: int
    var initialFee: int
    /** The action the pending 100 ms repeat will re-run, if one is pending. */
    var repeatAction: Option<string>

    constructor()
      ensures initialFee == 1 && rbfValue == 0 && repeatAction.None?
    {
      initialFee := 1;
      rbfValue := 0;
      repeatAction := None;
    }

    /** `componentDidMount`: with RBF possible, start one above the original fee rate. */
    method Mount(rbfIsSupported: bool, transactionFee: int)
      modifies this`initialFee, this`rbfValue
      ensures rbfIsSupported ==> initialFee == transactionFee && rbfValue == transactionFee + 1
      ensures !rbfIsSupported ==> initialFee == old(initialFee) && rbfValue == old(rbfValue)
    {
      if rbfIsSupported {
        initialFee := transactionFee;
        rbfValue := transactionFee + 1;
      }
    }

    /** `updateRbfValue(action)`. */
    method UpdateRbfValue(action: string, view: RbfView, byteCount: ByteCounter)
      modifies this`rbfValue, this`repeatAction
      ensures var r := RbfStep(old(rbfValue), initialFee, action,
                               CanAffordRbf(view, old(rbfValue), Some(old(rbfValue) + 1), byteCount));
        rbfValue == r.rbfValue && repeatAction == if r.repeats then Some(action) else old(repeatAction)
    {
      var value := if action == "increase" then 1 else -1;
      if rbfValue == initialFee + 1 && action == "decrease" {
        return;
      }
      if action == "increase" && !CanAffordRbf(view, rbfValue, Some(rbfValue + 1), byteCount) {
        return;
      }
      if rbfValue < initialFee + 1 {
        rbfValue := initialFee + 1;
        return;
      }
      rbfValue := rbfValue + value;
      repeatAction := Some(action);
    }

    /** The pending repeat fires and runs the same action again. */
    method RepeatFires(view: RbfView, byteCount: ByteCounter)
      requires repeatAction.Some?
      modifies this`rbfValue, this`repeatAction
      ensures var r := RbfStep(old(rbfValue), initialFee, old(repeatAction).value,
                               CanAffordRbf(view, old(rbfValue), Some(old(rbfValue) + 1), byteCount));
        rbfValue == r.rbfValue && repeatAction == if r.repeats then old(repeatAction) else None
    {
      var action := repeatAction.value;
      repeatAction := None;
      UpdateRbfValue(action, view, byteCount);
    }

    /** `stopRbfValueTimer()`: releasing the button cancels the repeat. */
    method StopRbfValueTimer()
      modifies this`repeatAction
      ensures repeatAction.None?
    {
      repeatAction := None;
    }
  }

  /**
   * `canRbf()`: the coin supports RBF and the setting is on, the
   * transaction was sent and is unconfirmed, a rate of 1 is affordable, and
   * the RBF record exists.
   */
  function CanRbf(rbfCoins: set<string>, coin: string, rbfSetting: Value, txType: Value,
                  block: Block, tip: int, formatNumber: Formatter, parse: string -> Option<real>,
                  view: RbfView, stateRbfValue: int, byteCount: ByteCounter): bool
  {
    if coin !in rbfCoins || !Truthy(rbfSetting) then false
    else if txType != Str("sent") then false
    else if AboveZero(GetConfirmations(block, tip, formatNumber), parse) then false
    else if !CanAffordRbf(view, stateRbfValue, Some(1), byteCount) then false
    else view.rbfData.Some?
  }

  lemma CanRbfExactly(rbfCoins: set<string>, coin: string, rbfSetting: Value, txType: Value,
                      block: Block, tip: int, formatNumber: Formatter, parse: string -> Option<real>,
                      view: RbfView, stateRbfValue: int, byteCount: ByteCounter)
    ensures CanRbf(rbfCoins, coin, rbfSetting, txType, block, tip, formatNumber, parse, view, stateRbfValue, byteCount) <==>
      coin in rbfCoins && Truthy(rbfSetting) && txType == Str("sent")
      && !AboveZero(GetConfirmations(block, tip, formatNumber), parse)
      && view.rbfData.Some?
      && view.confirmedBalance
         > Abs(TransactionSize(view, view.rbfData.value, byteCount)) * Abs(1 - view.rbfData.value.transactionFee)
  {
    AffordExactly(view, stateRbfValue, Some(1), byteCount);
  }

  // ---------------------------------------------------------------------
  // Explorer links
  // ---------------------------------------------------------------------

  const BLOCK_EXPLORERS: map<string, string> := map[
    "bitcoin" := "https://blockstream.info/block-height/",
    "bitcoinTestnet" := "https://blockstream.info/testnet/block-height/",
    "litecoin" := "https://chain.so/block/LTC/",
    "litecoinTestnet" := "https://chain.so/block/LTC/",
    "canadaecoin" := "https://chainz.cryptoid.info/cdn/block.dws?",
    "auroracoin" := "https://chainz.cryptoid.info/aur/block.dws?",
    "egulden" := "https://chainz.cryptoid.info/efl/block.dws?",
    "emark" := "https://chainz.cryptoid.info/dem/block.dws?"
  ]

  const ADDRESS_EXPLORERS: map<string, string> := map[
    "bitcoin" := "https://blockstream.info/address/",
    "bitcoinTestnet" := "https://blockstream.info/testnet/address/",
    "litecoin" := "https://chain.so/address/LTC/",
    "litecoinTestnet" := "https://chain.so/address/LTCTEST/",
    "canadaecoin" := "https://chainz.cryptoid.info/cdn/address.dws?",
    "auroracoin" := "https://chainz.cryptoid.info/aur/address.dws?",
    "egulden" := "https://chainz.cryptoid.info/efl/address.dws?",
    "emark" := "https://chainz.cryptoid.info/dem/address.dws?"
  ]

  const MESSAGE_EXPLORERS: map<string, string> := map[
    "bitcoin" := "https://chain.so/tx/BTC/",
    "bitcoinTestnet" := "https://chain.so/tx/BTCTEST/",
    "litecoin" := "https://chain.so/tx/LTC/",
    "litecoinTestnet" := "https://chain.so/tx/LTCTEST/",
    "canadaecoin" := "https://explorer.canadaecoin.ca/tx/"
  ]

  /** `openBlock(block)`: the URL opened, "" for a coin without a block explorer. */
  function BlockUrl(coin: string, block: string): (url: string)
    ensures url == "" <==> coin !in BLOCK_EXPLORERS
    ensures url != "" ==> BLOCK_EXPLORERS[coin] <= url && url[|BLOCK_EXPLORERS[coin]|..] == block
  {
    if coin in BLOCK_EXPLORERS then BLOCK_EXPLORERS[coin] + block else ""
  }

  /** `openAddress(address)`: the URL opened, "" for a coin without an address explorer. */
  function AddressUrl(coin: string, address: string): (url: string)
    ensures url == "" <==> coin !in ADDRESS_EXPLORERS
    ensures url != "" ==> ADDRESS_EXPLORERS[coin] <= url && url[|ADDRESS_EXPLORERS[coin]|..] == address
  {
    if coin in ADDRESS_EXPLORERS then ADDRESS_EXPLORERS[coin] + address else ""
  }

  /** `openMessage(tx)`: the URL opened, or None when the switch falls to `default` and opens nothing. */
  function MessageUrl(coin: string, tx: string): (url: Option<string>)
    ensures url.Some? <==> coin in MESSAGE_EXPLORERS
    ensures url.Some? ==> MESSAGE_EXPLORERS[coin] <= url.value && url.value[|MESSAGE_EXPLORERS[coin]|..] == tx
  {
    if coin in MESSAGE_EXPLORERS then Some(MESSAGE_EXPLORERS[coin] + tx) else None
  }

  /**
   * The same eight coins have block and address links; the message links
   * cover only five of them, so for auroracoin, egulden and emark
   * `openMessage` opens nothing while `openBlock` and `openAddress` do. The
   * litecoin testnet's block link is the mainnet one, although its address
   * and message links are the testnet ones.
   */
  lemma ExplorerCoverage(block: string, address: string, tx: string)
    ensures BLOCK_EXPLORERS.Keys == ADDRESS_EXPLORERS.Keys
    ensures MESSAGE_EXPLORERS.Keys < BLOCK_EXPLORERS.Keys
    ensures forall coin :: coin in {"auroracoin", "egulden", "emark"} ==>
      BlockUrl(coin, block) != "" && AddressUrl(coin, address) != "" && MessageUrl(coin, tx).None?
    ensures BlockUrl("litecoinTestnet", block) == BlockUrl("litecoin", block)
    ensures AddressUrl("litecoinTestnet", address) != AddressUrl("litecoin", address)
    ensures MessageUrl("litecoinTestnet", tx) != MessageUrl("litecoin", tx)
  {
    var mainnet := "https://chain.so/address/LTC/" + address;
    var testnet := "https://chain.so/address/LTCTEST/" + address;
    assert mainnet[28] != testnet[28];
    assert ("https://chain.so/tx/LTC/" + tx)[23] != ("https://chain.so/tx/LTCTEST/" + tx)[23];
    assert "bitcoin" in MESSAGE_EXPLORERS;
    assert "emark" !in MESSAGE_EXPLORERS;
  }

  // ---------------------------------------------------------------------
  // UTXO badges
  // ---------------------------------------------------------------------

  /** `selectedTransaction.hash`, or "" when there is no selected transaction to read it from. */
  function SelectedHash(selectedTransaction: Value): Value
  {
    if Nullish(selectedTransaction) then Str("") else FieldOf(selectedTransaction, "hash")
  }

  /**
   * `isBlacklisted()`: the coin's blacklist (None when it cannot be read)
   * includes the selected hash.
   */
  function IsBlacklisted(blacklistedUtxos: Option<seq<Value>>, selectedTransaction: Value): (r: bool)
    ensures r <==> blacklistedUtxos.Some?
                   && exists i :: 0 <= i < |blacklistedUtxos.value|
                                  && blacklistedUtxos.value[i] == SelectedHash(selectedTransaction)
  {
    blacklistedUtxos.Some? && Includes(blacklistedUtxos.value, SelectedHash(selectedTransaction))
  }

  /** `utxos.map((utxo) => utxo.tx_hash)`, None when some entry is null or undefined and the map throws. */
  function TxHashes(utxos: seq<Value>): (r: Option<seq<Value>>)
    ensures r.Some? <==> forall i :: 0 <= i < |utxos| ==> !Nullish(utxos[i])
    ensures r.Some? ==> |r.value| == |utxos|
                        && forall i :: 0 <= i < |utxos| ==> r.value[i] == FieldOf(utxos[i], "tx_hash")
  {
    if utxos == [] then Some([])
    else if Nullish(utxos[0]) then None
    else match TxHashes(utxos[1..])
      case None => None
      case Some(rest) => Some([FieldOf(utxos[0], "tx_hash")] + rest)
  }

  /**
   * `isActiveUtxo()`: some UTXO of the coin carries the selected hash; a
   * UTXO list that cannot be read or mapped gives false.
   */
  function IsActiveUtxo(utxos: Option<seq<Value>>, selectedTransaction: Value): (r: bool)
    ensures r <==> utxos.Some?
                   && (forall i :: 0 <= i < |utxos.value| ==> !Nullish(utxos.value[i]))
                   && exists i :: 0 <= i < |utxos.value|
                                  && FieldOf(utxos.value[i], "tx_hash") == SelectedHash(selectedTransaction)
  {
    match utxos
    case None => false
    case Some(us) =>
      match TxHashes(us)
      case None => false
      case Some(hashes) => Includes(hashes, SelectedHash(selectedTransaction))
  }
}
